=== FILE: README.md ===
# NutriFit core logic in Dafny

NutriFit is an iOS nutrition and fitness application written in SwiftUI. Its
screens call a REST back end directly. Around those calls sit small pieces of
pure logic, and this project models them:

- reading the user id out of the JWT issued at sign-in, including the
  base64url-to-base64 conversion and padding, and checking the result with a
  concrete base64 decoder (RFC 4648, section 4);
- the schema-tolerant decoders and the request bodies:
  - daily entries and meals (`MealStruct`);
  - the scanned-product lookup, the save-to-fridge body and the
    consumed-meal body (`ProductScanView`);
  - the fridge list, which filters out incomplete elements (`FridgeView`);
  - the two `Nutriments` mappings, storage and display (`ProductStruct`);
- the profile form's label/code mapping and its inverse (both copies of
  `DataUserView`);
- the dashboard's calorie gauges, the step-based correction of burned
  calories and the update it sends, the consumed-calorie sum, and logging out;
- the training-session total and the add-calories request (`DetailsTrainingView`);
- the calendar's month grid and month navigation (`CalendarView`);
- the two Nutri-Score colour mappings.

The network, `UserDefaults`, Foundation's JSON parser and the calendar are
modelled as follows:

- **HTTP reply:** a value (`Http.Response`). It is a transport error, or a
  status together with a body that is missing, unparseable or a parsed JSON
  value.
- **UserDefaults:** a key-to-string map (`Session.Store`).
- **JSON:** an abstract value type (`Json.Json`). Swift's `as?` casts and
  `Decodable`'s `decode`/`decodeIfPresent` are written out over it.
- **Parsing and formatting:** `Double(String)`, `String(Double)`,
  `String(Int)`, and UTF-8 plus JSON parsing of the JWT payload are function
  parameters.
- **Calendar:** the month's first weekday, the calendar's first weekday, the
  number of days and month addition are inputs.

Modules, one per file:

- `Wrappers`, `Json`, `Http`, `Session`, `Numerics`: shared types and
  helpers. `Numerics` holds Swift's truncating `Int(_:)` and `%`.
- `Base64`, `Jwt`, `SignIn`: the sign-in screen.
- `Meals`, `Nutrition`, `NutriScore`, `ProductScan`, `Fridge`: food data.
- `Profile`, `Dashboard`, `Training`, `Calendar`: the remaining screens.

Three behaviours of the code that a reader may not expect, all modelled as written:

- The fridge list is cast with `as? [[String: Any]]`. So a top-level array
  holding one non-object element fails the whole list with "Format de données
  incorrect", just as a non-array value does.
- A non-200 reply to `fetchDailyEntry` fails with its own status. A 200 reply
  with no data fails the same way.
- `fetchProductList` with no user id never calls its completion. It only sets
  the screen's error message.

## Model

| member | source | states |
|---|---|---|
| Jwt.Split | NutriFit/Views/Login/SignInView.swift:189 | Swift's `split(separator:)`: every piece is non-empty and free of the separator; a string without the separator is one piece, or none if empty |
| Jwt.SplitFirst | NutriFit/Views/Login/SignInView.swift:189 | a non-empty leading run free of the separator becomes the first piece, and splitting resumes after the separator |
| Jwt.SplitLeadingSeparator | NutriFit/Views/Login/SignInView.swift:189 | a leading separator yields no piece; together with SplitFirst and the no-separator case this fixes every split |
| Jwt.SplitThree | NutriFit/Views/Login/SignInView.swift:189-190 | a token `h.p.s` with three non-empty dot-free parts splits into exactly those three parts |
| Jwt.AdjacentDotsDropPiece | NutriFit/Views/Login/SignInView.swift:189-193 | `a..b` yields only two pieces, because empty pieces are dropped |
| Jwt.LeadingDotDropped | NutriFit/Views/Login/SignInView.swift:189-193 | `.a.b.c` yields the three pieces a, b, c, so such a token passes the count check |
| Jwt.UrlToStandard | NutriFit/Views/Login/SignInView.swift:197-199 | the alphabet mapping keeps the length, replaces each `-` by `+` and each `_` by `/`, changes nothing else, and leaves no `-` or `_` |
| Jwt.UrlRoundTrip | NutriFit/Views/Login/SignInView.swift:197-199 | mapping a standard-alphabet string to base64url and back restores it |
| Jwt.Pad | NutriFit/Views/Login/SignInView.swift:201-203 | padding appends fewer than four `=` to reach a multiple of four, keeps the original prefix, and leaves an aligned string unchanged |
| Jwt.PadByLoop | NutriFit/Views/Login/SignInView.swift:201-203 | the `while` loop that appends one `=` at a time computes the same padded string |
| Jwt.DecodeJwt | NutriFit/Views/Login/SignInView.swift:188-218 | a payload object is returned iff the token splits into exactly three pieces, the second piece, converted and padded, base64-decodes, and the bytes parse to a JSON object; the object returned is exactly that parsed object |
| Jwt.HeaderAndSignatureIgnored | NutriFit/Views/Login/SignInView.swift:195 | two tokens with the same payload piece decode alike, whatever their header and signature |
| Jwt.WrongPartCountRefused | NutriFit/Views/Login/SignInView.swift:190-193 | a token that does not split into three pieces yields no payload |
| Jwt.DecodeSignedToken | NutriFit/Views/Login/SignInView.swift:188-218 | a token whose payload is the unpadded base64url encoding of some bytes decodes to exactly the object those bytes parse to |
| Base64.DecodeEncode | NutriFit/Views/Login/SignInView.swift:205 | the RFC 4648 decoder that stands for `Data(base64Encoded:)` inverts the padded encoder on every byte sequence |
| Base64.Decode | NutriFit/Views/Login/SignInView.swift:205 | a decodable string has a length that is a multiple of four and yields at most three bytes per four characters |
| Base64.PadCount | NutriFit/Views/Login/SignInView.swift:201-203 | the number of `=` to append is below four, makes the length a multiple of four, and is zero exactly for aligned lengths |
| Base64.EncodedLength | NutriFit/Views/Login/SignInView.swift:200-202 | an unpadded segment of n bytes has 4·(n div 3) characters plus (n mod 3) + 1 for a partial group, so its length is a multiple of four only when n is a multiple of three, which is why the padding loop exists |
| SignIn.SignIn | NutriFit/Views/Login/SignInView.swift:144-176 | the token is stored whenever a 200 reply carries one, whatever its payload; the user id is written iff the payload yields a String `userId`, otherwise the previous user id (or none) stays; no other key changes; without a token nothing changes; the failure message appears iff a reply with data has a status other than 200; the success message appears iff the token's payload yields a user id; no other message is ever shown |
| SignIn.SignInWithSignedToken | NutriFit/Views/Login/SignInView.swift:150-155 | signing in with a well-formed token whose payload holds `userId` stores both the token and that user id and fetches that user's profile |
| SignIn.TwoPartTokenKeepsStaleUserId | NutriFit/Views/Login/SignInView.swift:151-154 | a token with only two parts replaces the stored token but leaves an older user id in place |
| SignIn.IsFirstConnection | NutriFit/Views/Login/SignInView.swift:262-268 | the first connection is detected iff `activites` is missing or not a String |
| Json.DecodeDoubleIfPresent | NutriFit/Structs/MealStruct.swift:59-60 | `decodeIfPresent(Double.self)`: absent or null gives no value, a number gives that number, any other type is an error |
| Json.DecodeIntIfPresent | NutriFit/Structs/MealStruct.swift:61 | `decodeIfPresent(Int.self)`: absent or null gives no value, an integral number within Swift's 64-bit `Int` range gives that integer, anything else is a type mismatch |
| Json.DecodeIntRejectsOverflow | NutriFit/Structs/MealStruct.swift:61 | 10^19, a whole number beyond 64 bits, is a type mismatch, while 2^63 − 1 still decodes |
| Json.DecodeStringIfPresent | NutriFit/Structs/MealStruct.swift:62 | `decodeIfPresent(String.self)`: absent or null gives no value, a string gives that string, anything else is an error |
| Json.StringField | NutriFit/Views/Scan/ProductScanView.swift:234-242 | `o[key] as? String` succeeds iff the key holds a string, and returns that string |
| Json.DoubleField | NutriFit/Views/Scan/ProductScanView.swift:247-253 | `o[key] as? Double` succeeds iff the key holds a number, and returns it |
| Json.StringArrayField | NutriFit/Views/Scan/ProductScanView.swift:241 | `o[key] as? [String]` succeeds iff the key holds an array of strings only, and returns them in order |
| Meals.DecodeEntryTimestamp | NutriFit/Structs/MealStruct.swift:44-53 | inside `createdAt`, `_seconds` and `_nanoseconds` default to 0 when absent or null and are copied when present |
| Meals.DecodeDailyEntry | NutriFit/Structs/MealStruct.swift:56-64 | decoding succeeds iff the value is an object whose optional fields have the right type and whose `createdAt` is present and well formed; absent numbers become 0, an absent date becomes "Inconnue"; a missing `createdAt` is an error |
| Meals.DailyEntryRoundTrip | NutriFit/Structs/MealStruct.swift:33-64 | encoding a daily entry with all its keys and decoding it gives the entry back |
| Meals.DailyEntryDefaults | NutriFit/Structs/MealStruct.swift:59-63 | an object holding only `createdAt` decodes to zero calories, zero burn, zero steps and the date "Inconnue" |
| Meals.UnknownDateIsAmbiguous | NutriFit/Structs/MealStruct.swift:62 | an entry whose real date is "Inconnue" reads back the same as one with no date |
| Meals.DecodeMeal | NutriFit/Structs/MealStruct.swift:10-18 | a meal decodes exactly from an object whose optional id is absent, null or a string, whose name, quantity and image_url are strings, calories a number and createdAt a timestamp object; the meal holds exactly those values; a missing name, calories or creation date fails |
| Meals.DecodeMealReadsOnlyItsKeys | NutriFit/Structs/MealStruct.swift:10-18 | two objects that agree on id, name, calories, quantity, image_url and createdAt decode alike |
| Meals.MealIgnoresExtraKeys | NutriFit/Structs/MealStruct.swift:10-18 | a meal object carrying any further key still decodes to the same meal |
| Meals.MealRoundTrip | NutriFit/Structs/MealStruct.swift:10-31 | encoding a meal and decoding it gives the meal back |
| Meals.DecodeMealList | NutriFit/Views/DataUser/DashBoardView.swift:531 | `decode([Meal].self)` succeeds iff the value is an array all of whose elements decode, and keeps their order |
| Meals.TotalCaloriesAppend | NutriFit/Views/DataUser/DashBoardView.swift:532 | the left-fold calorie sum of two lists joined is the sum of their sums |
| Meals.TotalCaloriesBounds | NutriFit/Views/DataUser/DashBoardView.swift:532 | with no negative meal, each meal's calories lie between 0 and the total |
| Nutrition.AsStorage | NutriFit/Structs/ProductStruct.swift:52-62 | `asDictionaryBdd` has exactly the seven keys energy, energy-kcal, fat, saturatedFat, sugars, salt, proteins, each holding its field unchanged |
| Nutrition.StorageRoundTrip | NutriFit/Structs/ProductStruct.swift:52-62 | reading the seven storage keys back rebuilds the nutriments, without their id |
| Nutrition.StorageIgnoresId | NutriFit/Structs/ProductStruct.swift:27 | the id plays no part in the storage mapping |
| Nutrition.AsDisplay | NutriFit/Structs/ProductStruct.swift:38-48 | `asDictionary` has exactly seven distinct display labels, each holding its field's text followed by its unit |
| Nutrition.DisplayUnits | NutriFit/Structs/ProductStruct.swift:40-46 | the unit is " kJ" for energy, " kcal" for energy in kcal and " g" for the other five |
| Nutrition.StorageKeyInjective | NutriFit/Structs/ProductStruct.swift:54-60 | distinct nutrients have distinct storage keys |
| ProductScan.LookupKeyDiffersOnlyForSaturatedFat | NutriFit/Views/Scan/ProductScanView.swift:247-253 | the lookup reads each nutrient under its storage key except saturated fat, read from `saturated-fat` |
| ProductScan.LookupNutriments | NutriFit/Views/Scan/ProductScanView.swift:246-254 | each nutrient is the number under its lookup key, or 0.0 when missing or not a number |
| ProductScan.DecodeLookup | NutriFit/Views/Scan/ProductScanView.swift:234-271 | a product is built iff all ten top-level keys hold values of the expected types, from exactly those values |
| ProductScan.FetchNutritionalInfo | NutriFit/Views/Scan/ProductScanView.swift:206-284 | no token gives 401; a transport error is passed on; any non-200 status gives 404 "Produit inconnu ou non alimentaire"; a 200 reply gives 500 "Données manquantes" without data and a syntax error when unparseable; no completion at all iff a 200 reply parses to a non-object; an object succeeds exactly when it has the ten typed fields, with the decoded product, and otherwise gives 500 "Données manquantes ou invalides" |
| ProductScan.SaveProductBody | NutriFit/Views/Scan/ProductScanView.swift:310-321 | the fridge body has the decoder's ten keys, and its nutriments are the storage mapping |
| ProductScan.SavedBodyFields | NutriFit/Views/Scan/ProductScanView.swift:310-321 | each key of the fridge body holds the product field of the same name, with the type the lookup decoder casts it to |
| ProductScan.LookupOfSavedBody | NutriFit/Views/Scan/ProductScanView.swift:250 | looking a saved body up again returns the product with no id and its saturated fat at 0.0, because of the key mismatch |
| ProductScan.FetchOfSavedBody | NutriFit/Views/Scan/ProductScanView.swift:234-273 | with a token, a 200 reply carrying a body the app saved completes successfully with that product, without id and with saturated fat at 0.0 |
| ProductScan.SaveProductRequest | NutriFit/Views/Scan/ProductScanView.swift:286-321 | a save request is built iff there is a product and both credentials are present, for the stored user with the product's body |
| ProductScan.SaveProductResult | NutriFit/Views/Scan/ProductScanView.swift:331-345 | the save succeeds, with no error message, iff the reply has status 200 |
| ProductScan.MealCalories | NutriFit/Views/Scan/ProductScanView.swift:371 | the meal's calories times 100 are the product's kcal per 100 g times the parsed quantity, so 100 gives the kcal per 100 g; an unparseable quantity gives 0; never negative for non-negative inputs |
| ProductScan.MealBody | NutriFit/Views/Scan/ProductScanView.swift:374-379 | the meal body has exactly name, calories, quantity (the raw text) and image_url |
| ProductScan.MealBodyReadsBackAsMeal | NutriFit/Views/Scan/ProductScanView.swift:374-379 | the meal body, once the server adds a creation time, decodes as a `Meal` with the same name, calories, quantity and image |
| ProductScan.SaveMealResult | NutriFit/Views/Scan/ProductScanView.swift:352-430 | missing credentials fail with -1 or -2; a transport error is passed on; a status outside 200-299 fails with that status; a 2xx reply succeeds exactly when its body is an object with a String message, returning it; otherwise -6 without data and -7 for a body that does not decode |
| NutriScore.ScanColor | NutriFit/Views/Scan/ProductScanView.swift:432-445 | a grade read in either case is coloured green exactly for a and b, yellow exactly for c, orange exactly for d and red exactly for e; gray exactly for anything that is not one letter a to e; never the fridge's faded red |
| NutriScore.FridgeColor | NutriFit/Views/Food/FridgeView.swift:235-244 | a grade read in either case is coloured green exactly for a, yellow exactly for b, orange exactly for c, red exactly for d and faded red exactly for e; gray exactly for anything that is not a grade (the same table as ProductDetailView.swift:106-115) |
| NutriScore.FridgeColorInjective | NutriFit/Views/Food/ProductDetailView.swift:106-115 | the fridge and detail screens give each grade its own colour |
| NutriScore.ScreensAgreeOnlyOnAAndUnknown | NutriFit/Views/Food/FridgeView.swift:235-244 | the two mappings agree exactly on grade a and on unknown grades |
| NutriScore.ColorsIgnoreCase | NutriFit/Views/Scan/ProductScanView.swift:433 | upper- and lower-case letters get the same colour on both screens |
| NutriScore.GradeOf | NutriFit/Views/Scan/ProductScanView.swift:433 | a grade is recognised iff the text is one letter a to e in either case |
| Fridge.ListNutriments | NutriFit/Views/Food/FridgeView.swift:140-148 | each nutrient is the string under its storage key, or "0.0" followed by its unit |
| Fridge.DecodeItem | NutriFit/Views/Food/FridgeView.swift:127-163 | an element becomes an item iff it has all eleven typed fields including `_id` |
| Fridge.DecodeItems | NutriFit/Views/Food/FridgeView.swift:125-166 | the list never has more items than elements |
| Fridge.ItemsComeFromElements | NutriFit/Views/Food/FridgeView.swift:125-166 | every item is the decoding of some element |
| Fridge.DecodeItemsAppend | NutriFit/Views/Food/FridgeView.swift:125-166 | decoding keeps order: the items of two lists joined are the items of each, joined |
| Fridge.DropsIncompleteElement | NutriFit/Views/Food/FridgeView.swift:127-165 | an incomplete element is dropped silently, wherever it stands |
| Fridge.KeepsCompleteElements | NutriFit/Views/Food/FridgeView.swift:125-166 | when every element is complete, each one yields its item at the same position |
| Fridge.FetchProductList | NutriFit/Views/Food/FridgeView.swift:89-182 | no user id means no completion and only an error message; no token gives 401; a transport error is passed on; a non-200 status gives 404 "Aucun produit enregistré."; a 200 reply gives 500 "Données manquantes" without data and a syntax error when unparseable; a parsed value that is not an array of objects gives 500 "Format de données incorrect"; otherwise the filtered list |
| Fridge.EmptyArrayIsEmptyList | NutriFit/Views/Food/FridgeView.swift:122-168 | an empty array is a successful empty list |
| Fridge.SavedProductListsWithDefaultNutriments | NutriFit/Views/Food/FridgeView.swift:141-147 | a saved product, stored as numbers, lists back with every nutrient at its "0.0" default, because the list reads strings |
| Profile.FirstIndex | NutriFit/Views/DataUser/DataUserView.swift:240-241 | `firstIndex(of:)` finds a value iff it is in the list, at its first position |
| Profile.ActivityMapping | NutriFit/Views/DataUser/DataUserView.swift:24-26 | Sédentaire, Actif and Sportif map to SEDENTARY, ACTIVE and SPORTIVE, and the empty selection maps to nothing |
| Profile.GoalMapping | NutriFit/Views/DataUser/DataUserView.swift:245-246 | Perte de poids and Prise de masse map to WEIGHTLOSS and WEIGHTGAIN, and the empty selection to nothing |
| Profile.SaveUserInfo | NutriFit/Views/DataUser/DataUserView.swift:238-275 | a request is sent iff both labels are known, both credentials are present and the three fields parse; its body has exactly id, age, weight, size, genre, activites and objective, with genre false iff the gender is "Homme" |
| Profile.InitialFormNotSent | NutriFit/DataUserView.swift:239-243 | the form as it opens, with nothing selected, is never sent |
| Profile.ShowInfoUser | NutriFit/Views/DataUser/DataUserView.swift:358-386 | each correctly typed stored field replaces the form's, age truncated to an integer, true shown as "Femme"; a missing, ill-typed or unknown value leaves the field unchanged |
| Profile.SaveThenShowRestoresSelection | NutriFit/DataUserView.swift:366-394 | saving a form and showing the saved body restores the selected activity and goal and the gender |
| Profile.ShowThenSaveRestoresCodes | NutriFit/DataUserView.swift:260-268 | showing a stored profile and saving at once sends back its activity and goal codes and its gender flag |
| Profile.ActivityLabelRoundTrip | NutriFit/DataUserView.swift:22-26 | label to code to label is the identity for every activity |
| Profile.ActivityCodeRoundTrip | NutriFit/Views/DataUser/DataUserView.swift:375-379 | code to label to code is the identity for every activity code |
| Profile.GoalLabelRoundTrip | NutriFit/DataUserView.swift:244-245 | label to code to label is the identity for every goal |
| Profile.GoalCodeRoundTrip | NutriFit/Views/DataUser/DataUserView.swift:381-385 | code to label to code is the identity for every goal code |
| Profile.UnknownCodeKeepsSelection | NutriFit/Views/DataUser/DataUserView.swift:375-385 | an unknown code or a missing or ill-typed field leaves the selections unchanged |
| Profile.SavedProfileIsNotFirstConnection | NutriFit/Views/DataUser/DataUserView.swift:261-269 | once a profile body is saved, the sign-in check no longer sees a first connection |
| Profile.SaveAccepted | NutriFit/Views/DataUser/DataUserView.swift:305-313 | the profile counts as saved iff the reply's status is 200 |
| Profile.FetchUserInfo | NutriFit/Views/DataUser/DataUserView.swift:318-355 | the form shows the stored profile only with both credentials and a 200 reply carrying an object, and is otherwise unchanged |
| Dashboard.CaloriesStep | NutriFit/Views/DataUser/DashBoardView.swift:25 | twenty steps make one calorie |
| Dashboard.Remaining | NutriFit/Views/DataUser/DashBoardView.swift:27 | the remainder is never negative, is zero iff the target is reached, and otherwise completes what was used up to the target |
| Dashboard.RemainingBurn | NutriFit/Views/DataUser/DashBoardView.swift:28 | the burn remainder uses the fixed target 2000, with the same clamp |
| Dashboard.Progress | NutriFit/Views/DataUser/DashBoardView.swift:16-31 | progress lies in [0,1]; for a non-negative target it is 1 iff the target is reached, so the starting target 0 shows a full gauge unless the calories used are negative, in which case it shows 0; a negative target always shows full; for a positive target it is 0 for nothing used and the used fraction in between |
| Dashboard.UsedFraction | NutriFit/Views/DataUser/DashBoardView.swift:30-31 | before clamping, one minus the remaining share is at least 1 for a negative target; for a positive one it is 1 once the target is reached, below 1 before it, at most 0 when nothing is used, and exactly the used share in between |
| Dashboard.FullGaugeIsEmptyRemainder | NutriFit/Views/DataUser/DashBoardView.swift:27-31 | for a non-negative target, including the starting 0, a full progress bar coincides with a zero remainder |
| Dashboard.AdjustBurn | NutriFit/Views/DataUser/DashBoardView.swift:409-418 | with both stored numbers, the new burn exceeds the stored burn by the calories of the steps taken since; with equal step counts it is the stored burn; without both it is unchanged |
| Dashboard.UpdateBody | NutriFit/Views/DataUser/DashBoardView.swift:420-424 | the update body has exactly calories, caloriesBurn and steps; the burn is an integer within one of the corrected burn, below it for a positive burn and above it for a negative one, that is truncated toward zero |
| Dashboard.UpdateIsStable | NutriFit/Views/DataUser/DashBoardView.swift:409-424 | reading back the entry just written with the same step count needs no correction, so the next update is identical |
| Dashboard.FetchCalories | NutriFit/Views/DataUser/DashBoardView.swift:303-344 | missing credentials give 401; it succeeds iff a 200 reply carries an object, and then the target becomes the object's `calories` number, or stays as it was when there is none; in every other case the target is unchanged; a transport error is passed on; a non-200 or empty reply fails with its status; an unparseable 200 body is a syntax error; a non-object gives 500 "Réponse non valide." |
| Dashboard.FetchDailyEntry | NutriFit/Views/DataUser/DashBoardView.swift:379-446 | it succeeds iff credentials are present and a 200 reply carries an object; exactly then the burn is corrected and the update is sent; on failure the burn is unchanged; a transport error, a 200 reply that does not parse, and a 200 reply that is not an object each give their own error, and any other status or a missing body gives that status with "Erreur HTTP" |
| Dashboard.UpdateSentWithoutCorrection | NutriFit/Views/DataUser/DashBoardView.swift:409-425 | an entry lacking either number still triggers an update, carrying the previous burn |
| Dashboard.FetchConsumedCalories | NutriFit/Views/DataUser/DashBoardView.swift:503-543 | missing credentials give 401; on a 200 reply with a parsed body, it succeeds iff the body decodes as a list of meals, with their calorie sum, and otherwise fails with that decoding error; a transport error, a 200 reply that does not parse, and any other status or a missing body (that status with "Erreur HTTP") each give their own error |
| Dashboard.NoMealsNoCalories | NutriFit/Views/DataUser/DashBoardView.swift:532-534 | an empty meal list sums to 0 |
| Dashboard.ReadsFailAfterLogout | NutriFit/Views/DataUser/DashBoardView.swift:296-300 | after logging out, every dashboard read fails with 401 and changes no gauge |
| Session.Logout | NutriFit/Views/DataUser/DashBoardView.swift:296-300 | logging out removes authToken and userId and keeps every other key and value |
| Training.SessionTotal | NutriFit/Views/Sport/DetailsTrainingView.swift:128-130 | an empty program totals 0, and a program without negative calories totals at least 0 |
| Training.SessionTotalIsSum | NutriFit/Views/Sport/DetailsTrainingView.swift:128-130 | the left fold equals the right fold: the total does not depend on the order of summing |
| Training.SessionTotalAppend | NutriFit/Views/Sport/DetailsTrainingView.swift:128-130 | splitting a program in two splits its total |
| Training.ComputeSessionTotal | NutriFit/Views/Sport/DetailsTrainingView.swift:128-130 | the running sum over the exercises is the session total |
| Training.AddCaloriesBody | NutriFit/Views/Sport/DetailsTrainingView.swift:164 | the body has the single key caloriesBurnToAdd, holding the sum of the exercises' calories |
| Training.StoredTotalIgnored | NutriFit/Views/Sport/DetailsTrainingView.swift:128-131 | the program's own totalCalories field plays no part in the body |
| Training.EmptyProgramAddsNothing | NutriFit/Views/Sport/DetailsTrainingView.swift:128-131 | a program with no exercises posts 0 |
| Training.AddCaloriesBurn | NutriFit/Views/Sport/DetailsTrainingView.swift:146-189 | missing credentials give 401 before any request; it succeeds iff the reply body is a JSON object, whatever the status; a transport error is passed on; no data gives 500 "Aucune donnée reçue."; an unparseable body is a syntax error; a non-object gives 500 "Réponse inattendue." |
| Training.StatusIgnored | NutriFit/Views/Sport/DetailsTrainingView.swift:167-188 | the HTTP status never changes the result |
| Training.ValidateSession | NutriFit/Views/Sport/DetailsTrainingView.swift:127-143 | the screen reports success iff there is no error, iff the reply body is an object and credentials are present; on failure it shows exactly the error the request produced |
| Training.ValidationFailsAfterLogout | NutriFit/Views/Sport/DetailsTrainingView.swift:147-151 | after logging out, validation fails with 401 whatever the server would answer |
| Calendar.Padding | NutriFit/Views/DataUser/CalendarView.swift:29-30 | the padding lies in 0..6 and is 0 iff the month starts on the calendar's first weekday |
| Calendar.PaddingReachesFirstWeekday | NutriFit/Views/DataUser/CalendarView.swift:29-30 | counting the padding forward from the calendar's first weekday reaches the month's first weekday |
| Calendar.DaysWithPadding | NutriFit/Views/DataUser/CalendarView.swift:22-42 | empty if the month cannot be computed; otherwise its length is padding plus days, the first padding cells are blank, and every later cell i holds day i − padding + 1, so the days follow in order |
| Calendar.DayInItsWeekdayColumn | NutriFit/Views/DataUser/CalendarView.swift:29-41 | each day of the month sits in the column of its own weekday, columns being counted from the calendar's first weekday (not from the header row; see Calendar.DayUnderItsHeaderIffMondayFirst) |
| Calendar.ColumnOfDay | NutriFit/Views/DataUser/CalendarView.swift:29-30 | counted on from the padding, day d lands in the column whose weekday, counted from the calendar's first weekday, is the weekday of day d |
| Calendar.HeaderWeekday | NutriFit/Views/DataUser/CalendarView.swift:72 | the header row names Monday to Saturday over columns 0 to 5 and Sunday over column 6, and each letter is the French initial of its weekday |
| Calendar.HeaderMatchesColumnIffMondayFirst | NutriFit/Views/DataUser/CalendarView.swift:13-72 | a column's header names the weekday of that column iff the calendar's week starts on Monday |
| Calendar.DayUnderItsHeaderIffMondayFirst | NutriFit/Views/DataUser/CalendarView.swift:13-72 | every day of the month is shown under the header of its own weekday iff the calendar's week starts on Monday |
| Calendar.SundayFirstMislabelsDays | NutriFit/Views/DataUser/CalendarView.swift:30-72 | with a Sunday-first calendar, the first day of a month that starts on Monday is in column 1, under the Tuesday "M" |
| Calendar.HeaderAlignedGrid | NutriFit/Views/DataUser/CalendarView.swift:22-42 | the grid padded from Monday: the padding blanks, then every day of the month in order |
| Calendar.HeaderAlignedGridLabelsDays | NutriFit/Views/DataUser/CalendarView.swift:22-72 | in the Monday-padded grid every day sits under its own weekday's letter |
| Calendar.BuildGrid | NutriFit/Views/DataUser/CalendarView.swift:33-41 | building the grid cell by cell gives the same grid |
| Calendar.Navigate | NutriFit/Views/DataUser/CalendarView.swift:117 | the month moves by the given delta, or stays when the calendar cannot compute the new date |
| Calendar.PreviousUndoesNext | NutriFit/Views/DataUser/CalendarView.swift:117-126 | with the Gregorian calendar, previous undoes next and next undoes previous |
| Calendar.NextCrossesYear | NutriFit/Views/DataUser/CalendarView.swift:126 | next from December is January of the following year, and previous goes back |
| Numerics.Truncate | NutriFit/Views/DataUser/DashBoardView.swift:422 | `Int(x)` drops the fraction toward zero: the result is within one of x, on x's side of zero |
| Numerics.Remainder | NutriFit/Views/DataUser/CalendarView.swift:30 | Swift's `%` by a positive divisor gives a remainder below the divisor in size, with the dividend's sign, and differs from the dividend by a multiple of the divisor |

## Left out

- HTTP transport is not modelled: `URLSession`, `DispatchQueue` hops, request headers and URLs. Each operation takes the reply as an input.
- A URL that fails to build, and a reply that is not an `HTTPURLResponse`, are not modelled. Every URL the screens build here is well formed.
- `UserDefaults` is a map. Only the `authToken` and `userId` keys are read or written.
- Foundation's JSON parser and UTF-8 decoding are not modelled. A reply body is already unparseable or a `Json` value, and the JWT payload bytes go through the parameter `parse`.
- `Double(String)`, `String(Double)` and `String(Int)` are parameters, so their exact text formats are not modelled.
- NSNumber bridging is not modelled: a JSON `true` read `as? Double`, or `1` read `as? Bool`. Numbers and booleans are separate kinds of `Json`.
- IEEE-754 arithmetic is not modelled in general: NaN, infinities and rounding. Calorie arithmetic is over `real`. The one division by zero the screens reach, the dashboard gauge with its starting target 0, is written out in `Dashboard.Progress` with the value Swift's `min` and `max` give it.
- Swift `Int` overflow in arithmetic is not modelled: the training total, `Int(caloriesBurned)` and the calendar arithmetic are unbounded integers. Decoded `Int` fields are bounded to 64 bits.
- Interpolated error messages are not modelled in full. "Erreur HTTP : 500" is represented by its constant part "Erreur HTTP", with the status carried by the error code.
- Error messages that only reach `print` are not modelled: the profile save's aborts and `updateDailyEntry`'s result.
- Numeric results whose only effect is display are not modelled, for example `Int(entry.calories)` in labels.
- Base64.Decode: accepts a final quantum whose unused trailing bits are not zero; how Foundation's `Data(base64Encoded:)` treats such input is not modelled, and the round trip is stated for the encoder's own (canonical) output.
- Jwt.Split: works on Unicode scalars, whereas Swift's `split(separator:)` and `count` work on grapheme clusters. A dot followed by a combining mark (U+0301, say) is one Character in Swift and not a separator, so such a token has fewer Swift segments than the model gives it; `Jwt.DecodeJwt` and `Jwt.Pad` inherit this. Tokens whose text is ASCII, as base64url and JWS headers are, split alike.
- Json.DecodeIntIfPresent: accepts exactly the integral numbers within 64 bits, whereas `JSONDecoder` works on the textual number. Forms like `1.0` or `1e2` are not distinguished.
- The calendar's date arithmetic is not modelled: start of month, weekday, day range and month addition. `Calendar.compactMap` over `date(byAdding:)` is taken never to drop a day.
- HealthKit step queries and authorisation are not modelled. The step count is an input of the dashboard's state.
- The barcode camera is not modelled.
- `deleteProduct`, `deleteItems` and meal deletion are not modelled. They are list mutations that depend on the order in which callbacks complete.
- Server behaviour is not modelled: the additivity of add-calories-burn, storage, and the AI dish endpoints.
- Pure UI and navigation screens are not modelled: HomeView, MainApp, the training list, MealsView, DayDetailView, RecommendedDishView, SignUpView, the root dashboard copy, and the text extensions.
- Exercise's generated `UUID` identity is not modelled.

## Findings

| source | as written | input that shows it | evidently intended | confidence | as-written member | corrected member |
|---|---|---|---|---|---|---|
| NutriFit/Views/DataUser/CalendarView.swift:30-72 | the padding is counted from `Calendar.current.firstWeekday`, but the header row is fixed at "L M M J V S D", Monday first | a Sunday-first locale and a month starting on Monday: one blank, so day 1 is under the second letter, the Tuesday "M" | every day under its own weekday's letter, that is, padding counted from Monday to match the header | not executed | Calendar.SundayFirstMislabelsDays | Calendar.HeaderAlignedGridLabelsDays |

=== FILE: base64.dfy ===
/**
  The base 64 encoding of section 4 of RFC 4648, standing for Foundation's
  `Data(base64Encoded:)` (decoding, with its default options) and for the
  encoder a JWS signer uses to produce a token.

  Decoding is strict about the alphabet, about the length being a multiple of
  four and about where `=` may appear (only as one or two padding characters
  at the very end), and it discards the unused low bits of a padded final
  quantum as section 3.5 of RFC 4648 allows.
*/
module Base64 {
  import opened Wrappers

  type byte = x: int | 0 <= x < 256
  type sextet = x: int | 0 <= x < 64

  const PadChar: char := '='

  /** The 64 characters of the standard alphabet (Table 1 of RFC 4648). */
  predicate IsAlphabetChar(c: char) {
    ('A' <= c <= 'Z') || ('a' <= c <= 'z') || ('0' <= c <= '9') || c == '+' || c == '/'
  }

  function CharValue(c: char): (v: sextet)
    requires IsAlphabetChar(c)
  {
    if 'A' <= c <= 'Z' then c as int - 'A' as int
    else if 'a' <= c <= 'z' then c as int - 'a' as int + 26
    else if '0' <= c <= '9' then c as int - '0' as int + 52
    else if c == '+' then 62
    else 63
  }

  /** The alphabet read in the other direction: `CharValue` undoes it. */
  function ValueChar(v: sextet): (c: char)
    ensures IsAlphabetChar(c) && CharValue(c) == v
  {
    if v < 26 then ('A' as int + v) as char
    else if v < 52 then ('a' as int + (v - 26)) as char
    else if v < 62 then ('0' as int + (v - 52)) as char
    else if v == 62 then '+'
    else '/'
  }

  /** Two alphabet characters with the same value are the same character. */
  lemma CharValueInjective(c: char, d: char)
    requires IsAlphabetChar(c) && IsAlphabetChar(d)
    ensures CharValue(c) == CharValue(d) ==> c == d
  {
  }

  // ---- Encoding -------------------------------------------------------------

  /** Three bytes give four sextets, most significant bits first. */
  function EncodeTriple(x: byte, y: byte, z: byte): string {
    [ValueChar(x / 4), ValueChar((x % 4) * 16 + y / 16), ValueChar((y % 16) * 4 + z / 64), ValueChar(z % 64)]
  }

  /**
    Standard base 64 without padding: a final group of one byte gives two
    characters and one of two bytes gives three.
  */
  function EncodeUnpadded(b: seq<byte>): (s: string)
    ensures |s| == 0 <==> |b| == 0
    ensures forall i | 0 <= i < |s| :: IsAlphabetChar(s[i])
    decreases |b|
  {
    if |b| == 0 then []
    else if |b| == 1 then [ValueChar(b[0] / 4), ValueChar((b[0] % 4) * 16)]
    else if |b| == 2 then [ValueChar(b[0] / 4), ValueChar((b[0] % 4) * 16 + b[1] / 16), ValueChar((b[1] % 16) * 4)]
    else EncodeTriple(b[0], b[1], b[2]) + EncodeUnpadded(b[3..])
  }

  /** The number of `=` that completes a string of length n to whole quanta. */
  function PadCount(n: nat): (k: nat)
    ensures k < 4 && (n + k) % 4 == 0
    ensures k == 0 <==> n % 4 == 0
  {
    (4 - n % 4) % 4
  }

  /** Four more characters need the same padding. */
  lemma PadCountShift(n: nat)
    ensures PadCount(n + 4) == PadCount(n)
  {
    assert (n + 4) % 4 == n % 4;
  }

  function Pads(k: nat): (s: string)
    ensures |s| == k && forall i | 0 <= i < k :: s[i] == PadChar
  {
    seq(k, _ => PadChar)
  }

  /** Standard base 64 with padding, as section 4 of RFC 4648 prescribes. */
  function Encode(b: seq<byte>): (s: string)
    ensures |s| % 4 == 0
  {
    var u := EncodeUnpadded(b);
    u + Pads(PadCount(|u|))
  }

  // ---- Decoding -------------------------------------------------------------

  /** A full quantum of four alphabet characters gives three bytes. */
  function DecodeQuad(q: string): (r: Option<seq<byte>>)
    requires |q| == 4
    ensures r.Some? <==> forall i | 0 <= i < 4 :: IsAlphabetChar(q[i])
    ensures r.Some? ==> |r.value| == 3
  {
    if IsAlphabetChar(q[0]) && IsAlphabetChar(q[1]) && IsAlphabetChar(q[2]) && IsAlphabetChar(q[3]) then
      var a, b, c, d := CharValue(q[0]), CharValue(q[1]), CharValue(q[2]), CharValue(q[3]);
      Some([a * 4 + b / 16, (b % 16) * 16 + c / 4, (c % 4) * 64 + d])
    else None
  }

  /** The final quantum may also end in `==` (one byte) or `=` (two bytes). */
  function DecodeFinalQuad(q: string): (r: Option<seq<byte>>)
    requires |q| == 4
    ensures r.Some? ==> 1 <= |r.value| <= 3
    ensures PadChar !in q ==> r == DecodeQuad(q)
  {
    if PadChar !in q then DecodeQuad(q)
    else if IsAlphabetChar(q[0]) && IsAlphabetChar(q[1]) && q[2] == PadChar && q[3] == PadChar then
      var a, b := CharValue(q[0]), CharValue(q[1]);
      Some([a * 4 + b / 16])
    else if IsAlphabetChar(q[0]) && IsAlphabetChar(q[1]) && IsAlphabetChar(q[2]) && q[3] == PadChar then
      var a, b, c := CharValue(q[0]), CharValue(q[1]), CharValue(q[2]);
      Some([a * 4 + b / 16, (b % 16) * 16 + c / 4])
    else None
  }

  /** `Data(base64Encoded:)`: nil unless the text is whole, well-padded quanta. */
  function Decode(s: string): (r: Option<seq<byte>>)
    ensures r.Some? ==> |s| % 4 == 0
    ensures r.Some? ==> |r.value| <= |s| / 4 * 3
    decreases |s|
  {
    if |s| == 0 then Some([])
    else if |s| < 4 then None
    else if |s| == 4 then DecodeFinalQuad(s)
    else
      match DecodeQuad(s[..4])
      case None => None
      case Some(head) =>
        match Decode(s[4..])
        case None => None
        case Some(tail) => Some(head + tail)
  }

  // ---- Round trip -----------------------------------------------------------

  /** The bit arithmetic of a full quantum undoes that of `EncodeTriple`. */
  lemma TripleRoundTrip(x: byte, y: byte, z: byte)
    ensures DecodeQuad(EncodeTriple(x, y, z)) == Some([x, y, z])
  {
    var a, b, c, d := x / 4, (x % 4) * 16 + y / 16, (y % 16) * 4 + z / 64, z % 64;
    assert b / 16 == x % 4 && b % 16 == y / 16;
    assert c / 4 == y % 16 && c % 4 == z / 64;
  }

  /** Each three bytes give four characters, and a final group of k bytes k + 1. */
  lemma {:induction false} EncodedLength(b: seq<byte>)
    ensures |EncodeUnpadded(b)| == (|b| / 3) * 4 + (if |b| % 3 == 0 then 0 else |b| % 3 + 1)
    decreases |b|
  {
    if |b| > 3 {
      EncodedLength(b[3..]);
      assert |b[3..]| / 3 == |b| / 3 - 1 && |b[3..]| % 3 == |b| % 3;
    }
  }

  /** A final group of one byte: two characters and `==`. */
  lemma EncodeOneRoundTrip(x: byte)
    ensures Decode(Encode([x])) == Some([x])
  {
    var q := [ValueChar(x / 4), ValueChar((x % 4) * 16), PadChar, PadChar];
    assert Encode([x]) == q;
    assert q[2] == PadChar;
    assert ((x % 4) * 16) / 16 == x % 4;
  }

  /** A final group of two bytes: three characters and `=`. */
  lemma EncodeTwoRoundTrip(x: byte, y: byte)
    ensures Decode(Encode([x, y])) == Some([x, y])
  {
    var bb := (x % 4) * 16 + y / 16;
    var q := [ValueChar(x / 4), ValueChar(bb), ValueChar((y % 16) * 4), PadChar];
    assert Encode([x, y]) == q;
    assert q[3] == PadChar;
    assert bb / 16 == x % 4 && bb % 16 == y / 16;
    assert ((y % 16) * 4) / 4 == y % 16;
  }

  /** A final group of three bytes: one full quantum, no padding. */
  lemma EncodeThreeRoundTrip(x: byte, y: byte, z: byte)
    ensures Decode(Encode([x, y, z])) == Some([x, y, z])
  {
    var t := EncodeTriple(x, y, z);
    assert Encode([x, y, z]) == t;
    TripleRoundTrip(x, y, z);
    assert PadChar !in t;
  }

  /** More than three bytes: the first quantum, then the encoding of the rest. */
  lemma {:induction false} EncodeSplits(b: seq<byte>)
    requires |b| > 3
    ensures Encode(b) == EncodeTriple(b[0], b[1], b[2]) + Encode(b[3..])
    ensures |Encode(b[3..])| >= 4
  {
    var t := EncodeTriple(b[0], b[1], b[2]);
    var u := EncodeUnpadded(b[3..]);
    assert EncodeUnpadded(b) == t + u;
    PadCountShift(|u|);
    assert Encode(b) == (t + u) + Pads(PadCount(|u|));
  }

  /** Decoding a text longer than one quantum: its first quantum, then the rest. */
  lemma DecodeSplits(s: string, head: seq<byte>, tail: seq<byte>)
    requires |s| > 4
    requires DecodeQuad(s[..4]) == Some(head) && Decode(s[4..]) == Some(tail)
    ensures Decode(s) == Some(head + tail)
  {
  }

  /** A full quantum followed by a decodable text decodes to the concatenation. */
  lemma DecodeConcat(t: string, r: string, head: seq<byte>, tail: seq<byte>)
    requires |t| == 4 && |r| > 0
    requires DecodeQuad(t) == Some(head) && Decode(r) == Some(tail)
    ensures Decode(t + r) == Some(head + tail)
  {
    assert (t + r)[..4] == t && (t + r)[4..] == r;
    DecodeSplits(t + r, head, tail);
  }

  /** One inductive step of the round trip: a full quantum in front of the rest. */
  lemma DecodeEncodeStep(b: seq<byte>)
    requires |b| > 3
    requires Decode(Encode(b[3..])) == Some(b[3..])
    ensures Decode(Encode(b)) == Some(b)
  {
    var rest := b[3..];
    var t := EncodeTriple(b[0], b[1], b[2]);
    EncodeSplits(b);
    TripleRoundTrip(b[0], b[1], b[2]);
    DecodeConcat(t, Encode(rest), [b[0], b[1], b[2]], rest);
    assert [b[0], b[1], b[2]] + rest == b;
  }

  /** Decoding the padded encoding gives back the bytes: Decode ∘ Encode = Some. */
  lemma {:induction false} DecodeEncode(b: seq<byte>)
    ensures Decode(Encode(b)) == Some(b)
    decreases |b|
  {
    if |b| == 0 {
      assert Encode(b) == [];
    } else if |b| == 1 {
      EncodeOneRoundTrip(b[0]);
      assert [b[0]] == b;
    } else if |b| == 2 {
      EncodeTwoRoundTrip(b[0], b[1]);
      assert [b[0], b[1]] == b;
    } else if |b| == 3 {
      EncodeThreeRoundTrip(b[0], b[1], b[2]);
      assert [b[0], b[1], b[2]] == b;
    } else {
      DecodeEncode(b[3..]);
      DecodeEncodeStep(b);
    }
  }
}

=== FILE: calendar.dfy ===
/**
  The month grid of `CalendarView`: blank cells before the first day so that
  each day falls in its weekday's column, then the days of the month; and the
  previous/next month buttons. The calendar's own computations (start of the
  month, its weekday, its number of days, adding months to a date) are inputs.
*/
module Calendar {
  import opened Wrappers
  import Numerics

  /** A weekday number as `Calendar.component(.weekday, …)` reports it. */
  type Weekday = x: int | 1 <= x <= 7 witness 1

  /** The weekday the month starts on and its number of days. */
  datatype MonthInfo = MonthInfo(firstWeekday: Weekday, days: nat)

  /** A cell of the grid: a blank (`nil`) or the day of the month it shows. */
  type Cell = Option<nat>

  /**
    `paddingDays`: how many columns separate the calendar's first weekday from
    the month's first weekday, counting forwards.
  */
  function Padding(firstWeekday: Weekday, calendarFirstWeekday: Weekday): (p: nat)
    ensures p < 7
    ensures p == 0 <==> firstWeekday == calendarFirstWeekday
  {
    Numerics.RemainderOfNonNegative(firstWeekday - calendarFirstWeekday + 7, 7);
    Numerics.Remainder(firstWeekday - calendarFirstWeekday + 7, 7)
  }

  /** Counting the padding forwards from the calendar's first weekday reaches the month's first weekday. */
  lemma PaddingReachesFirstWeekday(firstWeekday: Weekday, calendarFirstWeekday: Weekday)
    ensures (calendarFirstWeekday - 1 + Padding(firstWeekday, calendarFirstWeekday)) % 7 + 1 == firstWeekday
  {
  }

  /** The weekday shown in column c of a grid whose first column is the calendar's first weekday. */
  function ColumnWeekday(c: nat, calendarFirstWeekday: Weekday): (w: Weekday)
    ensures c < 7 && c + calendarFirstWeekday <= 7 ==> w == calendarFirstWeekday + c
  {
    (calendarFirstWeekday - 1 + c) % 7 + 1
  }

  /** The weekday of day d of a month starting on `firstWeekday`. */
  function DayWeekday(firstWeekday: Weekday, d: nat): (w: Weekday)
    requires d >= 1
    ensures d == 1 ==> w == firstWeekday
  {
    (firstWeekday - 1 + d - 1) % 7 + 1
  }

  /**
    `daysInMonthWithPadding`: empty when the calendar cannot compute the month;
    otherwise the padding blanks followed by every day of the month in order.
  */
  function DaysWithPadding(month: Option<MonthInfo>, calendarFirstWeekday: Weekday): (cells: seq<Cell>)
    ensures month.None? ==> cells == []
    ensures month.Some? ==>
      LaidOut(cells, Padding(month.value.firstWeekday, calendarFirstWeekday), month.value.days)
  {
    match month
    case None => []
    case Some(m) =>
      var p := Padding(m.firstWeekday, calendarFirstWeekday);
      BlanksThenDays(p, m.days);
      Blanks(p) + MonthDays(m.days)
  }

  /**
    A grid of p blanks then the days of the month: its length is p + days, the
    first p cells are blank, and every later cell i holds day i - p + 1.
  */
  predicate LaidOut(cells: seq<Cell>, p: nat, days: nat) {
    && |cells| == p + days
    && (forall i | 0 <= i < p :: cells[i].None?)
    && (forall i | p <= i < |cells| :: cells[i] == Some(i - p + 1))
  }

  lemma BlanksThenDays(p: nat, days: nat)
    ensures LaidOut(Blanks(p) + MonthDays(days), p, days)
  {
    var b, m := Blanks(p), MonthDays(days);
    forall i | p <= i < p + days ensures (b + m)[i] == Some(i - p + 1) {
      assert (b + m)[i] == m[i - p];
    }
  }

  function Blanks(n: nat): (r: seq<Cell>)
    ensures |r| == n && forall i | 0 <= i < n :: r[i].None?
  {
    seq(n, _ => None)
  }

  function MonthDays(days: nat): (r: seq<Cell>)
    ensures |r| == days && forall i | 0 <= i < days :: r[i] == Some(i + 1)
  {
    seq(days, i => Some(i + 1))
  }

  /** Every day of the month lands in the column of its own weekday. */
  lemma DayInItsWeekdayColumn(month: MonthInfo, calendarFirstWeekday: Weekday, d: nat)
    requires 1 <= d <= month.days
    ensures
      var p := Padding(month.firstWeekday, calendarFirstWeekday);
      && DaysWithPadding(Some(month), calendarFirstWeekday)[p + d - 1] == Some(d)
      && ColumnWeekday((p + d - 1) % 7, calendarFirstWeekday) == DayWeekday(month.firstWeekday, d)
  {
    var p := Padding(month.firstWeekday, calendarFirstWeekday);
    assert LaidOut(DaysWithPadding(Some(month), calendarFirstWeekday), p, month.days);
    ColumnOfDay(month.firstWeekday, calendarFirstWeekday, d);
  }

  /** Day d, counted on from the padding, falls in the column of its weekday. */
  lemma ColumnOfDay(firstWeekday: Weekday, calendarFirstWeekday: Weekday, d: nat)
    requires d >= 1
    ensures var p := Padding(firstWeekday, calendarFirstWeekday);
      ColumnWeekday((p + d - 1) % 7, calendarFirstWeekday) == DayWeekday(firstWeekday, d)
  {
    var p := Padding(firstWeekday, calendarFirstWeekday);
    var c: nat, f: nat, e: nat := calendarFirstWeekday - 1, firstWeekday - 1, d - 1;
    PaddingReachesFirstWeekday(firstWeekday, calendarFirstWeekday);
    ColumnShift(c, f, p, e);
    assert ColumnWeekday((p + e) % 7, calendarFirstWeekday) == (c + (p + e) % 7) % 7 + 1;
    assert DayWeekday(firstWeekday, d) == (f + e) % 7 + 1;
  }

  /** Counting e more columns from column p of a row starting at c reaches f + e. */
  lemma ColumnShift(c: nat, f: nat, p: nat, e: nat)
    requires (c + p) % 7 == f
    ensures (c + (p + e) % 7) % 7 == (f + e) % 7
  {
    ModAddLeft(c, p + e);
    ModAddRight(c + p, e);
    assert c + (p + e) == (c + p) + e;
  }

  /** (a + b % 7) % 7 == (a + b) % 7 for non-negative a and b. */
  lemma ModAddLeft(a: nat, b: nat)
    ensures (a + b % 7) % 7 == (a + b) % 7
  {
    var q := b / 7;
    assert b == 7 * q + b % 7;
    ModMultiple(a + b % 7, q);
  }

  /** (a % 7 + b) % 7 == (a + b) % 7 for non-negative a and b. */
  lemma ModAddRight(a: nat, b: nat)
    ensures (a % 7 + b) % 7 == (a + b) % 7
  {
    ModAddLeft(b, a);
  }

  /** Adding whole weeks does not change the column. */
  lemma {:induction false} ModMultiple(x: nat, q: nat)
    ensures (x + 7 * q) % 7 == x % 7
    decreases q
  {
    if q > 0 {
      ModMultiple(x, q - 1);
      assert x + 7 * q == (x + 7 * (q - 1)) + 7;
    }
  }

  // ---- Column headers --------------------------------------------------------------

  /** Apple's number for Monday. */
  const Monday: Weekday := 2

  /** The fixed header row above the grid: French initials from Monday to Sunday. */
  const HeaderLetters: seq<string> := ["L", "M", "M", "J", "V", "S", "D"]

  /** The French initial of a weekday, Sunday (1) to Saturday (7). */
  function WeekdayLetter(w: Weekday): string {
    match w
    case 1 => "D"
    case 2 => "L"
    case 3 => "M"
    case 4 => "M"
    case 5 => "J"
    case 6 => "V"
    case 7 => "S"
  }

  /** The weekday the header row names above column c: Monday first, Sunday last. */
  function HeaderWeekday(c: nat): (w: Weekday)
    requires c < 7
    ensures HeaderLetters[c] == WeekdayLetter(w)
    ensures c < 6 ==> w == Monday + c
    ensures c == 6 ==> w == 1
  {
    (c + 1) % 7 + 1
  }

  /**
    A grid column carries the weekday its header names for every column exactly
    when the calendar's week starts on Monday; otherwise every column is off.
  */
  lemma HeaderMatchesColumnIffMondayFirst(calendarFirstWeekday: Weekday, c: nat)
    requires c < 7
    ensures HeaderWeekday(c) == ColumnWeekday(c, calendarFirstWeekday) <==> calendarFirstWeekday == Monday
  {
  }

  /**
    Every day of the month appears under the header letter of its own weekday
    exactly when the calendar's week starts on Monday.
  */
  lemma DayUnderItsHeaderIffMondayFirst(month: MonthInfo, calendarFirstWeekday: Weekday, d: nat)
    requires 1 <= d <= month.days
    ensures
      var p := Padding(month.firstWeekday, calendarFirstWeekday);
      HeaderWeekday((p + d - 1) % 7) == DayWeekday(month.firstWeekday, d) <==> calendarFirstWeekday == Monday
  {
    var p := Padding(month.firstWeekday, calendarFirstWeekday);
    ColumnOfDay(month.firstWeekday, calendarFirstWeekday, d);
    HeaderMatchesColumnIffMondayFirst(calendarFirstWeekday, (p + d - 1) % 7);
  }

  /**
    With a Sunday-first calendar, a month starting on Monday puts its first day
    in the second column, under the header of Tuesday.
  */
  lemma SundayFirstMislabelsDays()
    ensures
      var cells := DaysWithPadding(Some(MonthInfo(Monday, 30)), 1);
      && cells[1] == Some(1)
      && HeaderLetters[1] == WeekdayLetter(3)
      && HeaderWeekday(1) == 3
      && DayWeekday(Monday, 1) == Monday
  {
    var cells := DaysWithPadding(Some(MonthInfo(Monday, 30)), 1);
    assert Padding(Monday, 1) == 1;
    assert LaidOut(cells, 1, 30);
  }

  /**
    The grid padded to match the Monday-first header row, whatever week the
    calendar's locale starts on.
  */
  function HeaderAlignedGrid(month: Option<MonthInfo>): (cells: seq<Cell>)
    ensures month.None? ==> cells == []
    ensures month.Some? ==> LaidOut(cells, Padding(month.value.firstWeekday, Monday), month.value.days)
  {
    DaysWithPadding(month, Monday)
  }

  /** In the header-aligned grid every day sits under its own weekday's letter. */
  lemma HeaderAlignedGridLabelsDays(month: MonthInfo, d: nat)
    requires 1 <= d <= month.days
    ensures
      var p := Padding(month.firstWeekday, Monday);
      && HeaderAlignedGrid(Some(month))[p + d - 1] == Some(d)
      && HeaderWeekday((p + d - 1) % 7) == DayWeekday(month.firstWeekday, d)
      && HeaderLetters[(p + d - 1) % 7] == WeekdayLetter(DayWeekday(month.firstWeekday, d))
  {
    var p := Padding(month.firstWeekday, Monday);
    assert LaidOut(HeaderAlignedGrid(Some(month)), p, month.days);
    DayUnderItsHeaderIffMondayFirst(month, Monday, d);
  }

  /** The grid built cell by cell, as a reference for `DaysWithPadding`. */
  method BuildGrid(month: Option<MonthInfo>, calendarFirstWeekday: Weekday) returns (cells: seq<Cell>)
    ensures cells == DaysWithPadding(month, calendarFirstWeekday)
  {
    cells := [];
    if month.None? {
      return;
    }
    var m := month.value;
    var p := Padding(m.firstWeekday, calendarFirstWeekday);
    var i := 0;
    while i < p
      invariant 0 <= i <= p
      invariant cells == Blanks(i)
    {
      cells := cells + [None];
      i := i + 1;
    }
    var d := 1;
    while d <= m.days
      invariant 1 <= d <= m.days + 1
      invariant cells == Blanks(p) + MonthDays(d - 1)
    {
      cells := cells + [Some(d)];
      d := d + 1;
    }
  }

  // ---- Month navigation ----------------------------------------------------------

  /**
    The previous/next buttons: `calendar.date(byAdding: .month, value: delta,
    to: current) ?? current`, with the calendar's addition as the parameter
    `shift`. A date the calendar cannot compute leaves the current one.
  */
  function Navigate<D>(current: D, delta: int, shift: (D, int) -> Option<D>): (r: D)
    ensures shift(current, delta).None? ==> r == current
    ensures shift(current, delta).Some? ==> r == shift(current, delta).value
  {
    shift(current, delta).GetOr(current)
  }

  /** A month of the Gregorian calendar. */
  datatype YearMonth = YearMonth(year: int, month: int) {
    /** A month number of the Gregorian calendar. */
    predicate Valid() { 1 <= month <= 12 }
  }

  /** The number of months since January of year 0. */
  function MonthIndex(ym: YearMonth): int {
    ym.year * 12 + ym.month - 1
  }

  /** Adding k months to a Gregorian month, which never fails. */
  function AddMonths(ym: YearMonth, k: int): (r: YearMonth)
    ensures r.Valid()
    ensures MonthIndex(r) == MonthIndex(ym) + k
  {
    var i := MonthIndex(ym) + k;
    YearMonth(i / 12, i % 12 + 1)
  }

  lemma MonthIndexInjective(a: YearMonth, b: YearMonth)
    requires a.Valid() && b.Valid()
    requires MonthIndex(a) == MonthIndex(b)
    ensures a == b
  {
  }

  function GregorianShift(ym: YearMonth, k: int): Option<YearMonth> {
    Some(AddMonths(ym, k))
  }

  /** With the Gregorian calendar, "previous" undoes "next" and "next" undoes "previous". */
  lemma PreviousUndoesNext(ym: YearMonth)
    requires ym.Valid()
    ensures Navigate(Navigate(ym, 1, GregorianShift), -1, GregorianShift) == ym
    ensures Navigate(Navigate(ym, -1, GregorianShift), 1, GregorianShift) == ym
  {
    MonthIndexInjective(AddMonths(AddMonths(ym, 1), -1), ym);
    MonthIndexInjective(AddMonths(AddMonths(ym, -1), 1), ym);
  }

  /** "Next" from December moves to January of the following year, and "previous" back. */
  lemma NextCrossesYear(year: int)
    ensures Navigate(YearMonth(year, 12), 1, GregorianShift) == YearMonth(year + 1, 1)
    ensures Navigate(YearMonth(year + 1, 1), -1, GregorianShift) == YearMonth(year, 12)
  {
    MonthIndexInjective(AddMonths(YearMonth(year, 12), 1), YearMonth(year + 1, 1));
    MonthIndexInjective(AddMonths(YearMonth(year + 1, 1), -1), YearMonth(year, 12));
  }
}

=== FILE: dashboard.dfy ===
/**
  The dashboard (`DashBoardView` under Views/DataUser): the calorie gauges,
  the step-based correction of the burned calories and the daily-entry update
  it sends, the consumed-calorie total, and the three reads behind them.
*/
module Dashboard {
  import opened Wrappers
  import opened Json
  import opened Http
  import opened Session
  import Numerics
  import Meals

  /** Calories credited per step. */
  const CaloriesPerStep: real := 0.05
  /** The fixed daily burn target (`caloriesBurnMax`). */
  const BurnTarget: real := 2000.0

  const MissingCredentialsMessage: string := "Token ou ID utilisateur manquant."
  const InvalidReplyMessage: string := "Réponse non valide."
  const RequestFailedMessage: string := "Échec de la requête. Code HTTP"
  const NoTokenMessage: string := "Token non disponible"
  const NoUserIdMessage: string := "UserId non disponible"
  const HttpErrorMessage: string := "Erreur HTTP"
  const NotAuthenticatedMessage: string := "Utilisateur non authentifié."
  const NoAuthTokenMessage: string := "auth-token non disponible."

  // ---- Gauges -------------------------------------------------------------------

  /** `caloriesStep`: twenty steps make one calorie. */
  function CaloriesStep(stepCount: real): (r: real)
    ensures r * 20.0 == stepCount
  {
    stepCount * CaloriesPerStep
  }

  /** `caloriesRemainingMeal` and `caloriesRemainingBurn`: what is left of a target, never negative. */
  function Remaining(target: real, used: real): (r: real)
    ensures r >= 0.0
    ensures r == 0.0 <==> used >= target
    ensures r > 0.0 ==> used + r == target
  {
    if target - used > 0.0 then target - used else 0.0
  }

  /** The burn gauge measures against the fixed target. */
  function RemainingBurn(burned: real): (r: real)
    ensures r >= 0.0
    ensures r == 0.0 <==> burned >= BurnTarget
    ensures r > 0.0 ==> burned + r == BurnTarget
  {
    Remaining(BurnTarget, burned)
  }

  /** `max(0, min(1, x))`. */
  function Clamp(x: real): (r: real)
    ensures 0.0 <= r <= 1.0
    ensures 0.0 <= x <= 1.0 ==> r == x
  {
    if x < 0.0 then 0.0 else if x > 1.0 then 1.0 else x
  }

  /**
    `progressCaloriesUsed` and `progressCaloriesBurn`: the used fraction of the
    target, clamped to [0, 1], full exactly when the target is reached.

    A zero target, the dashboard's state before the profile is read, divides by
    zero in floating point. With nothing over-used the remainder is 0 and 0/0 is
    NaN; Swift's `min(1, NaN)` keeps its first argument, so the gauge is full.
    With a negative `used` the remainder is positive, x/0 is +infinity and the
    clamp gives 0. A negative target only ever yields values at or above 1, so
    the gauge is full.
  */
  function Progress(target: real, used: real): (r: real)
    ensures 0.0 <= r <= 1.0
    ensures target >= 0.0 ==> (r == 1.0 <==> used >= target)
    ensures target < 0.0 ==> r == 1.0
    ensures target > 0.0 && used <= 0.0 ==> r == 0.0
    ensures target == 0.0 && used < 0.0 ==> r == 0.0
    ensures target > 0.0 && 0.0 <= used <= target ==> r * target == used
  {
    if target == 0.0 then
      if Remaining(target, used) == 0.0 then 1.0 else 0.0
    else
      UsedFraction(target, used);
      Clamp(1.0 - Remaining(target, used) / target)
  }

  /** The unclamped gauge value `1 - remaining / target`, case by case. */
  lemma UsedFraction(target: real, used: real)
    requires target != 0.0
    ensures var x := 1.0 - Remaining(target, used) / target;
      && (target < 0.0 ==> x >= 1.0)
      && (target > 0.0 && used >= target ==> x == 1.0)
      && (target > 0.0 && used < target ==> x < 1.0)
      && (target > 0.0 && used <= 0.0 ==> x <= 0.0)
      && (target > 0.0 && 0.0 <= used <= target ==> x * target == used && 0.0 <= x <= 1.0)
  {
    var r := Remaining(target, used);
    var x := 1.0 - r / target;
    if target < 0.0 {
      assert r / target <= 0.0;
    } else if used < target {
      assert r == target - used;
      assert r / target * target == r;
      assert x * target == target - r;
      assert r / target > 0.0;
      if used <= 0.0 {
        assert r >= target;
        assert r / target >= 1.0;
      }
    }
  }

  lemma BurnProgress(burned: real)
    ensures 0.0 <= Progress(BurnTarget, burned) <= 1.0
    ensures Progress(BurnTarget, burned) == 1.0 <==> burned >= BurnTarget
    ensures 0.0 <= burned <= BurnTarget ==> Progress(BurnTarget, burned) * BurnTarget == burned
  {
  }

  /** The two gauges agree: a full progress bar is exactly a zero remainder. */
  lemma FullGaugeIsEmptyRemainder(target: real, used: real)
    requires target >= 0.0
    ensures Progress(target, used) == 1.0 <==> Remaining(target, used) == 0.0
  {
  }

  // ---- Step correction of the burned calories -----------------------------------

  /**
    The correction in `fetchDailyEntry`. When the stored entry has both a
    `caloriesBurn` and a `steps` number, the burned calories become the stored
    burn plus the calories of the steps taken since (a negative difference
    subtracts); otherwise they keep their previous value.
  */
  function AdjustBurn(previous: real, entry: JsonObject, stepCount: real): (r: real)
    ensures DoubleField(entry, "caloriesBurn").None? || DoubleField(entry, "steps").None? ==> r == previous
    ensures DoubleField(entry, "caloriesBurn").Some? && DoubleField(entry, "steps").Some? ==>
      r - CaloriesStep(stepCount) == DoubleField(entry, "caloriesBurn").value - CaloriesStep(DoubleField(entry, "steps").value)
    ensures DoubleField(entry, "caloriesBurn").Some? && DoubleField(entry, "steps") == Some(stepCount) ==>
      r == DoubleField(entry, "caloriesBurn").value
  {
    match (DoubleField(entry, "caloriesBurn"), DoubleField(entry, "steps"))
    case (Some(burn), Some(steps)) =>
      var stepDiff := stepCount - steps;
      if stepDiff == 0.0 then burn else burn + stepDiff * CaloriesPerStep
    case _ => previous
  }

  /** The body of the PUT `updateDailyEntry` sends: the burn is truncated to an integer. */
  function UpdateBody(caloriesUsed: real, caloriesBurned: real, stepCount: real): (b: JsonObject)
    ensures b.Keys == {"calories", "caloriesBurn", "steps"}
    ensures DoubleField(b, "calories") == Some(caloriesUsed)
    ensures DoubleField(b, "steps") == Some(stepCount)
    ensures DoubleField(b, "caloriesBurn").Some? && IsIntegral(DoubleField(b, "caloriesBurn").value)
    ensures caloriesBurned >= 0.0 ==> 0.0 <= caloriesBurned - DoubleField(b, "caloriesBurn").value < 1.0
    ensures caloriesBurned < 0.0 ==> -1.0 < caloriesBurned - DoubleField(b, "caloriesBurn").value <= 0.0
  {
    map["calories" := Number(caloriesUsed),
        "caloriesBurn" := Number(Numerics.Truncate(caloriesBurned) as real),
        "steps" := Number(stepCount)]
  }

  /**
    Reading back the entry just written with the same step count needs no
    further correction: the burn stays at its truncated value and the next
    update body is the same.
  */
  lemma UpdateIsStable(previous: real, caloriesUsed: real, caloriesBurned: real, stepCount: real)
    ensures
      var written := UpdateBody(caloriesUsed, caloriesBurned, stepCount);
      var burned := AdjustBurn(previous, written, stepCount);
      && burned == Numerics.Truncate(caloriesBurned) as real
      && UpdateBody(caloriesUsed, burned, stepCount) == written
  {
    Numerics.TruncateIntegral(Numerics.Truncate(caloriesBurned));
  }

  // ---- The three reads ----------------------------------------------------------

  /** The dashboard's state the reads update. */
  datatype Gauges = Gauges(caloriesUserMax: real, caloriesUsed: real, stepCount: real, caloriesBurned: real)

  /** What `fetchCalories` does: its completion, and the daily target it leaves. */
  datatype TargetRead = TargetRead(completion: Completion<real>, caloriesUserMax: real)

  /**
    `fetchCalories`. A 200 reply with a JSON object succeeds with the new
    daily target: the object's `calories` number, or the previous target when
    there is none. A reply that is not 200 or carries no data fails with its
    status.
  */
  function FetchCalories(g: Gauges, store: Store, response: Response): (r: TargetRead)
    ensures !HasCredentials(store) ==> r == TargetRead(Completed(Err(Failure(401, MissingCredentialsMessage))), g.caloriesUserMax)
    ensures r.completion.Completed? && (r.completion.result.Ok? <==> HasCredentials(store) && IsObjectReply(response, 200))
    ensures r.completion.result.Ok? ==> r.completion.result.value == r.caloriesUserMax
    ensures r.caloriesUserMax != g.caloriesUserMax ==> IsObjectReply(response, 200) && DoubleField(ReplyObject(response), "calories") == Some(r.caloriesUserMax)
    ensures HasCredentials(store) && IsObjectReply(response, 200) ==>
      r.caloriesUserMax == DoubleField(ReplyObject(response), "calories").GetOr(g.caloriesUserMax)
    ensures !(HasCredentials(store) && IsObjectReply(response, 200)) ==> r.caloriesUserMax == g.caloriesUserMax
    ensures HasCredentials(store) && response.TransportError? ==> r.completion == Completed(Err(Transport))
    ensures HasCredentials(store) && response == Reply(200, Unparseable) ==> r.completion == Completed(Err(SyntaxError))
    ensures HasCredentials(store) && response.Reply? && response.status == 200 && response.body.Parsed? && !response.body.json.Object? ==>
      r.completion == Completed(Err(Failure(500, InvalidReplyMessage)))
    ensures HasCredentials(store) && response.Reply? && (response.status != 200 || response.body.NoData?) ==>
      r.completion == Completed(Err(Failure(response.status, RequestFailedMessage)))
  {
    if !HasCredentials(store) then TargetRead(Completed(Err(Failure(401, MissingCredentialsMessage))), g.caloriesUserMax)
    else
      match response
      case TransportError => TargetRead(Completed(Err(Transport)), g.caloriesUserMax)
      case Reply(status, body) =>
        if status != 200 || body.NoData? then TargetRead(Completed(Err(Failure(status, RequestFailedMessage))), g.caloriesUserMax)
        else
          match body
          case Unparseable => TargetRead(Completed(Err(SyntaxError)), g.caloriesUserMax)
          case Parsed(Object(o)) =>
            var target := DoubleField(o, "calories").GetOr(g.caloriesUserMax);
            TargetRead(Completed(Ok(target)), target)
          case Parsed(_) => TargetRead(Completed(Err(Failure(500, InvalidReplyMessage))), g.caloriesUserMax)
  }

  /** What `fetchDailyEntry` does: its completion, the burn it leaves, and the update it sends. */
  datatype EntryRead = EntryRead(completion: Completion<JsonObject>, caloriesBurned: real, update: Option<JsonObject>)

  /**
    `fetchDailyEntry`. Only a 200 reply whose body is a JSON object succeeds;
    it corrects the burned calories and sends the update body, whether or not
    the correction applied.
  */
  function FetchDailyEntry(g: Gauges, store: Store, response: Response): (r: EntryRead)
    ensures AuthTokenKey !in store ==> r == EntryRead(Completed(Err(Failure(401, NoTokenMessage))), g.caloriesBurned, None)
    ensures AuthTokenKey in store && UserIdKey !in store ==> r == EntryRead(Completed(Err(Failure(401, NoUserIdMessage))), g.caloriesBurned, None)
    ensures r.completion.Completed?
    ensures r.completion.result.Ok? <==> HasCredentials(store) && IsObjectReply(response, 200)
    ensures r.update.Some? <==> r.completion.result.Ok?
    ensures r.completion.result.Ok? ==>
      && r.completion.result.value == ReplyObject(response)
      && r.caloriesBurned == AdjustBurn(g.caloriesBurned, ReplyObject(response), g.stepCount)
      && r.update == Some(UpdateBody(g.caloriesUsed, r.caloriesBurned, g.stepCount))
    ensures r.completion.result.Err? ==> r.caloriesBurned == g.caloriesBurned
    ensures HasCredentials(store) && response.Reply? && (response.status != 200 || response.body.NoData?) ==>
      r.completion == Completed(Err(Failure(response.status, HttpErrorMessage)))
    ensures HasCredentials(store) && response.TransportError? ==> r.completion == Completed(Err(Transport))
    ensures HasCredentials(store) && response == Reply(200, Unparseable) ==> r.completion == Completed(Err(SyntaxError))
    ensures HasCredentials(store) && response.Reply? && response.status == 200 && response.body.Parsed? && !response.body.json.Object? ==>
      r.completion == Completed(Err(Failure(500, InvalidReplyMessage)))
  {
    if AuthTokenKey !in store then EntryRead(Completed(Err(Failure(401, NoTokenMessage))), g.caloriesBurned, None)
    else if UserIdKey !in store then EntryRead(Completed(Err(Failure(401, NoUserIdMessage))), g.caloriesBurned, None)
    else
      match response
      case TransportError => EntryRead(Completed(Err(Transport)), g.caloriesBurned, None)
      case Reply(status, body) =>
        if status != 200 || body.NoData? then EntryRead(Completed(Err(Failure(status, HttpErrorMessage))), g.caloriesBurned, None)
        else
          match body
          case Unparseable => EntryRead(Completed(Err(SyntaxError)), g.caloriesBurned, None)
          case Parsed(Object(o)) =>
            var burned := AdjustBurn(g.caloriesBurned, o, g.stepCount);
            EntryRead(Completed(Ok(o)), burned, Some(UpdateBody(g.caloriesUsed, burned, g.stepCount)))
          case Parsed(_) => EntryRead(Completed(Err(Failure(500, InvalidReplyMessage))), g.caloriesBurned, None)
  }

  /**
    An entry lacking either number still triggers an update, which writes the
    burn the dashboard already had (truncated) and the current step count.
  */
  lemma UpdateSentWithoutCorrection(g: Gauges, store: Store, o: JsonObject)
    requires HasCredentials(store)
    requires DoubleField(o, "caloriesBurn").None? || DoubleField(o, "steps").None?
    ensures FetchDailyEntry(g, store, Reply(200, Parsed(Object(o)))).update == Some(UpdateBody(g.caloriesUsed, g.caloriesBurned, g.stepCount))
  {
  }

  /**
    `fetchAndCalculateCalories`. A 200 reply whose body decodes as a list of
    meals succeeds with the sum of their calories; one element that does not
    decode fails the whole read.
  */
  function FetchConsumedCalories(store: Store, response: Response): (r: Result<real, Error>)
    ensures UserIdKey !in store ==> r == Err(Failure(401, NotAuthenticatedMessage))
    ensures UserIdKey in store && AuthTokenKey !in store ==> r == Err(Failure(401, NoAuthTokenMessage))
    ensures r.Ok? ==>
      && HasCredentials(store) && response.Reply? && response.status == 200 && response.body.Parsed?
      && Meals.DecodeMealList(response.body.json).Ok?
      && r.value == Meals.TotalCalories(Meals.DecodeMealList(response.body.json).value)
    ensures HasCredentials(store) && response.Reply? && response.status == 200 && response.body.Parsed? ==>
      (r.Ok? <==> Meals.DecodeMealList(response.body.json).Ok?)
    ensures HasCredentials(store) && response.Reply? && response.status == 200 && response.body.Parsed? && Meals.DecodeMealList(response.body.json).Err? ==>
      r == Err(Decoding(Meals.DecodeMealList(response.body.json).error))
    ensures HasCredentials(store) && response.TransportError? ==> r == Err(Transport)
    ensures HasCredentials(store) && response.Reply? && (response.status != 200 || response.body.NoData?) ==>
      r == Err(Failure(response.status, HttpErrorMessage))
    ensures HasCredentials(store) && response == Reply(200, Unparseable) ==> r == Err(SyntaxError)
  {
    if UserIdKey !in store then Err(Failure(401, NotAuthenticatedMessage))
    else if AuthTokenKey !in store then Err(Failure(401, NoAuthTokenMessage))
    else
      match response
      case TransportError => Err(Transport)
      case Reply(status, body) =>
        if status != 200 || body.NoData? then Err(Failure(status, HttpErrorMessage))
        else
          match body
          case Unparseable => Err(SyntaxError)
          case Parsed(v) =>
            match Meals.DecodeMealList(v)
            case Err(e) => Err(Decoding(e))
            case Ok(meals) => Ok(Meals.TotalCalories(meals))
  }

  /** A day with no meals has consumed nothing. */
  lemma NoMealsNoCalories(store: Store)
    requires HasCredentials(store)
    ensures FetchConsumedCalories(store, Reply(200, Parsed(Array([])))) == Ok(0.0)
  {
  }

  /**
    Logging out makes every read fail before a request is made, and leaves the
    gauges as they were.
  */
  lemma ReadsFailAfterLogout(g: Gauges, store: Store, response: Response)
    ensures FetchCalories(g, Logout(store), response).completion == Completed(Err(Failure(401, MissingCredentialsMessage)))
    ensures FetchCalories(g, Logout(store), response).caloriesUserMax == g.caloriesUserMax
    ensures FetchDailyEntry(g, Logout(store), response).update.None?
    ensures FetchDailyEntry(g, Logout(store), response).caloriesBurned == g.caloriesBurned
    ensures FetchConsumedCalories(Logout(store), response) == Err(Failure(401, NotAuthenticatedMessage))
  {
  }
}

=== FILE: fridge.dfy ===
/**
  The fridge screen (`FridgeView.fetchProductList`): decoding the saved
  product list, where incomplete elements are dropped and the nutriments are
  read as display text.
*/
module Fridge {
  import opened Wrappers
  import opened Json
  import opened Http
  import opened Session
  import opened Nutrition
  import ProductScan

  /** `NutrimentsListProduct`: the seven facts as display text. */
  datatype DisplayNutriments = DisplayNutriments(
    energy: string, energyKcal: string, fat: string, saturatedFat: string,
    sugars: string, salt: string, proteins: string)

  /** `ProductList`: a saved product, which always has an `_id`. */
  datatype FridgeItem = FridgeItem(
    id: string,
    productName: string,
    ingredientsText: string,
    nutriments: DisplayNutriments,
    nutriscoreGrade: string,
    brands: string,
    categories: string,
    quantity: string,
    labels: string,
    allergens: seq<string>,
    imageUrl: string)

  const NotAuthenticatedMessage: string := "Utilisateur non authentifié."
  const NoTokenMessage: string := "auth-token non disponible"
  const MissingDataMessage: string := "Données manquantes"
  const BadFormatMessage: string := "Format de données incorrect"
  const NoProductMessage: string := "Aucun produit enregistré."

  function Text(d: DisplayNutriments, nu: Nutrient): string {
    match nu
    case Energy => d.energy
    case EnergyKcal => d.energyKcal
    case Fat => d.fat
    case SaturatedFat => d.saturatedFat
    case Sugars => d.sugars
    case Salt => d.salt
    case Proteins => d.proteins
  }

  /** The text shown for a missing fact: "0.0" and its unit. */
  function DefaultText(nu: Nutrient): (t: string)
    ensures t == "0.0" + Unit(nu)
  {
    match nu
    case Energy => "0.0 kJ"
    case EnergyKcal => "0.0 kcal"
    case _ => "0.0 g"
  }

  /**
    Each fact is the string under its storage key (so saturated fat is read
    from `saturatedFat`, unlike the lookup decoder), or its default text when
    missing or not a string.
  */
  function ListNutriments(o: JsonObject): (d: DisplayNutriments)
    ensures forall nu :: Text(d, nu) == StringField(o, StorageKey(nu)).GetOr(DefaultText(nu))
  {
    var t := (nu: Nutrient) => StringField(o, StorageKey(nu)).GetOr(DefaultText(nu));
    DisplayNutriments(t(Energy), t(EnergyKcal), t(Fat), t(SaturatedFat), t(Sugars), t(Salt), t(Proteins))
  }

  /** The eleven typed fields a listed element must carry. */
  predicate IsComplete(o: JsonObject) {
    StringField(o, "_id").Some? && ProductScan.HasProductFields(o)
  }

  /** One element of the list, or nothing when a required field is missing or ill-typed. */
  function DecodeItem(o: JsonObject): (r: Option<FridgeItem>)
    ensures r.Some? <==> IsComplete(o)
    ensures r.Some? ==>
      && o["_id"] == Str(r.value.id)
      && o["product_name"] == Str(r.value.productName)
      && o["ingredients_text"] == Str(r.value.ingredientsText)
      && o["nutriscore_grade"] == Str(r.value.nutriscoreGrade)
      && o["brands"] == Str(r.value.brands)
      && o["categories"] == Str(r.value.categories)
      && o["quantity"] == Str(r.value.quantity)
      && o["labels"] == Str(r.value.labels)
      && o["image_url"] == Str(r.value.imageUrl)
      && o["allergens"] == Array(StringsToJson(r.value.allergens))
      && r.value.nutriments == ListNutriments(o["nutriments"].fields)
  {
    if IsComplete(o) then
      Some(FridgeItem(
        o["_id"].str,
        o["product_name"].str,
        o["ingredients_text"].str,
        ListNutriments(o["nutriments"].fields),
        o["nutriscore_grade"].str,
        o["brands"].str,
        o["categories"].str,
        o["quantity"].str,
        o["labels"].str,
        StringArrayField(o, "allergens").value,
        o["image_url"].str))
    else None
  }

  /** The `for json in jsonArray` loop: complete elements, decoded, in order. */
  function DecodeItems(objects: seq<JsonObject>): (items: seq<FridgeItem>)
    ensures |items| <= |objects|
    decreases |objects|
  {
    if |objects| == 0 then []
    else
      var rest := DecodeItems(objects[1..]);
      match DecodeItem(objects[0])
      case Some(item) => [item] + rest
      case None => rest
  }

  /** Every listed item is the decoding of some element of the reply. */
  lemma {:induction false} ItemsComeFromElements(objects: seq<JsonObject>, i: nat)
    requires i < |DecodeItems(objects)|
    ensures exists j | 0 <= j < |objects| :: DecodeItem(objects[j]) == Some(DecodeItems(objects)[i])
    decreases |objects|
  {
    var rest := DecodeItems(objects[1..]);
    if DecodeItem(objects[0]).Some? && i == 0 {
      assert DecodeItem(objects[0]) == Some(DecodeItems(objects)[0]);
    } else {
      var k := if DecodeItem(objects[0]).Some? then i - 1 else i;
      assert DecodeItems(objects)[i] == rest[k];
      ItemsComeFromElements(objects[1..], k);
      var j :| 0 <= j < |objects[1..]| && DecodeItem(objects[1..][j]) == Some(rest[k]);
      assert DecodeItem(objects[j + 1]) == Some(DecodeItems(objects)[i]);
    }
  }

  /** Decoding a list in two halves gives the two halves' items in order. */
  lemma {:induction false} DecodeItemsAppend(a: seq<JsonObject>, b: seq<JsonObject>)
    ensures DecodeItems(a + b) == DecodeItems(a) + DecodeItems(b)
    decreases |a|
  {
    if |a| == 0 {
      assert a + b == b;
    } else {
      assert (a + b)[1..] == a[1..] + b;
      DecodeItemsAppend(a[1..], b);
    }
  }

  /** An incomplete element is dropped without failing the list. */
  lemma DropsIncompleteElement(a: seq<JsonObject>, o: JsonObject, b: seq<JsonObject>)
    requires !IsComplete(o)
    ensures DecodeItems(a + [o] + b) == DecodeItems(a) + DecodeItems(b)
  {
    var ao := a + [o];
    DecodeItemsAppend(ao, b);
    DecodeItemsAppend(a, [o]);
    SingleIncomplete(o);
    assert DecodeItems(ao) == DecodeItems(a);
  }

  lemma SingleIncomplete(o: JsonObject)
    requires !IsComplete(o)
    ensures DecodeItems([o]) == []
  {
    assert DecodeItem(o).None?;
    assert [o][1..] == [];
  }

  /** When every element is complete, nothing is dropped and the order is kept. */
  lemma {:induction false} KeepsCompleteElements(objects: seq<JsonObject>)
    requires forall j | 0 <= j < |objects| :: IsComplete(objects[j])
    ensures |DecodeItems(objects)| == |objects|
    ensures forall j | 0 <= j < |objects| :: DecodeItem(objects[j]) == Some(DecodeItems(objects)[j])
    decreases |objects|
  {
    if |objects| > 0 {
      KeepsCompleteElements(objects[1..]);
    }
  }

  function Objects(items: seq<Json>): (r: seq<JsonObject>)
    requires AllObjects(items)
    ensures |r| == |items| && forall i | 0 <= i < |items| :: items[i] == Object(r[i])
  {
    seq(|items|, i requires 0 <= i < |items| => items[i].fields)
  }

  /** What `fetchProductList` does: call its completion, or only set the error message. */
  datatype ListOutcome = ListOutcome(completion: Completion<seq<FridgeItem>>, errorMessage: Option<string>)

  /**
    `fetchProductList`. A missing user id only sets the error message and never
    completes. A 200 reply must be an array of objects (a single non-object
    element fails the cast, and the whole list); an empty array is an empty
    list. Any other status is "no product saved" (404).
  */
  function FetchProductList(store: Store, response: Response): (r: ListOutcome)
    ensures UserIdKey !in store <==> r == ListOutcome(NoCompletion, Some(NotAuthenticatedMessage))
    ensures r.completion.Completed? || r.errorMessage.Some?
    ensures UserIdKey in store && AuthTokenKey !in store ==>
      r.completion == Completed(Err(Failure(401, NoTokenMessage)))
    ensures HasCredentials(store) && response.Reply? && response.status != 200 ==>
      r.completion == Completed(Err(Failure(404, NoProductMessage)))
    ensures HasCredentials(store) && response.TransportError? ==> r.completion == Completed(Err(Transport))
    ensures HasCredentials(store) && response == Reply(200, NoData) ==>
      r.completion == Completed(Err(Failure(500, MissingDataMessage)))
    ensures HasCredentials(store) && response == Reply(200, Unparseable) ==> r.completion == Completed(Err(SyntaxError))
    ensures HasCredentials(store) && response.Reply? && response.status == 200 && response.body.Parsed? ==>
      var v := response.body.json;
      if v.Array? && AllObjects(v.items) then r.completion == Completed(Ok(DecodeItems(Objects(v.items))))
      else r.completion == Completed(Err(Failure(500, BadFormatMessage)))
  {
    if UserIdKey !in store then ListOutcome(NoCompletion, Some(NotAuthenticatedMessage))
    else if AuthTokenKey !in store then ListOutcome(Completed(Err(Failure(401, NoTokenMessage))), None)
    else
      match response
      case TransportError => ListOutcome(Completed(Err(Transport)), None)
      case Reply(status, body) =>
        if status != 200 then ListOutcome(Completed(Err(Failure(404, NoProductMessage))), None)
        else
          match body
          case NoData => ListOutcome(Completed(Err(Failure(500, MissingDataMessage))), None)
          case Unparseable => ListOutcome(Completed(Err(SyntaxError)), None)
          case Parsed(v) =>
            if v.Array? && AllObjects(v.items) then ListOutcome(Completed(Ok(DecodeItems(Objects(v.items)))), None)
            else ListOutcome(Completed(Err(Failure(500, BadFormatMessage))), None)
  }

  /** An empty array is a successful empty list. */
  lemma EmptyArrayIsEmptyList(store: Store)
    requires HasCredentials(store)
    ensures FetchProductList(store, Reply(200, Parsed(Array([])))).completion == Completed(Ok([]))
  {
  }

  /**
    A product saved through the scan screen lists with its fields intact but
    with every nutriment shown as its default text: the save body stores the
    facts as numbers, and this decoder only accepts strings.
  */
  lemma SavedProductListsWithDefaultNutriments(p: ProductScan.Product, id: string)
    ensures
      var stored := ProductScan.SaveProductBody(p)["_id" := Str(id)];
      DecodeItem(stored).Some? &&
      forall nu :: Text(DecodeItem(stored).value.nutriments, nu) == DefaultText(nu)
  {
    var body := ProductScan.SaveProductBody(p);
    var stored := body["_id" := Str(id)];
    ProductScan.SavedBodyFields(p);
    assert "_id" !in body;
    assert ProductScan.HasProductFields(stored) by {
      forall k | k in body ensures stored[k] == body[k] { }
    }
    var facts := stored["nutriments"].fields;
    assert facts == ProductScan.NumbersToJson(AsStorage(p.nutriments));
    forall nu ensures StringField(facts, StorageKey(nu)).None? {
      assert facts[StorageKey(nu)] == Number(Value(p.nutriments, nu));
    }
  }
}

=== FILE: http.dfy ===
/**
  What a `URLSession` data task hands to its completion handler, and the
  errors the screens pass on to theirs. The transport itself is not modelled:
  each operation takes the response as an input.
*/
module Http {
  import opened Wrappers
  import opened Json

  /** The `data` argument, after `JSONSerialization.jsonObject(with:)`. */
  datatype Body =
    | NoData              // `data` is nil
    | Unparseable         // the parser throws
    | Parsed(json: Json)

  /** The `error`/`response` arguments: a transport error, or an HTTP reply. */
  datatype Response =
    | TransportError
    | Reply(status: int, body: Body)

  /** A reply with the given status whose body parsed to a JSON object. */
  predicate IsObjectReply(response: Response, status: int) {
    response.Reply? && response.status == status && response.body.Parsed? && response.body.json.Object?
  }

  /** The object of such a reply. */
  function ReplyObject(response: Response): JsonObject
    requires response.Reply? && response.body.Parsed? && response.body.json.Object?
  {
    response.body.json.fields
  }

  /** The errors a completion handler receives. */
  datatype Error =
    | Transport                             // the data task's own `error`
    | SyntaxError                           // `JSONSerialization` threw
    | Decoding(reason: DecodeError)         // `JSONDecoder` threw
    | Failure(code: int, message: string)   // an `NSError` built by the screen

  /** A callback-style operation either calls its completion once or never. */
  datatype Completion<T> = NoCompletion | Completed(result: Result<T, Error>)
}

=== FILE: json.dfy ===
/**
  An abstract JSON value, standing for what Foundation's `JSONSerialization`
  and `JSONDecoder` produce from a response body, with the two families of
  field access the application uses:

  - the optional casts `dict[key] as? T`, which yield nothing for a missing
    key or a value of another type;
  - the `Decodable` accessors `decode` and `decodeIfPresent`, which fail with a
    decoding error for a value of the wrong type.
*/
module Json {
  import opened Wrappers

  datatype Json =
    | Null
    | Bool(b: bool)
    | Number(n: real)
    | Str(str: string)
    | Array(items: seq<Json>)
    | Object(fields: map<string, Json>)

  /** Swift's `[String: Any]`. */
  type JsonObject = map<string, Json>

  /** Every element is a string: `as? [String]` succeeds. */
  predicate AllStrings(items: seq<Json>) {
    forall i | 0 <= i < |items| :: items[i].Str?
  }

  /** Every element is an object: `as? [[String: Any]]` succeeds. */
  predicate AllObjects(items: seq<Json>) {
    forall i | 0 <= i < |items| :: items[i].Object?
  }

  function Strings(items: seq<Json>): (r: seq<string>)
    requires AllStrings(items)
    ensures |r| == |items|
    ensures forall i | 0 <= i < |items| :: items[i] == Str(r[i])
  {
    seq(|items|, i requires 0 <= i < |items| => items[i].str)
  }

  function StringsToJson(xs: seq<string>): (r: seq<Json>)
    ensures AllStrings(r) && Strings(r) == xs
  {
    seq(|xs|, i requires 0 <= i < |xs| => Str(xs[i]))
  }

  // ---- Optional casts: `dict[key] as? T` ------------------------------------

  function StringField(o: JsonObject, key: string): (r: Option<string>)
    ensures r.Some? <==> key in o && o[key].Str?
    ensures r.Some? ==> o[key] == Str(r.value)
  {
    if key in o && o[key].Str? then Some(o[key].str) else None
  }

  function DoubleField(o: JsonObject, key: string): (r: Option<real>)
    ensures r.Some? <==> key in o && o[key].Number?
    ensures r.Some? ==> o[key] == Number(r.value)
  {
    if key in o && o[key].Number? then Some(o[key].n) else None
  }

  function BoolField(o: JsonObject, key: string): (r: Option<bool>)
    ensures r.Some? <==> key in o && o[key].Bool?
    ensures r.Some? ==> o[key] == Bool(r.value)
  {
    if key in o && o[key].Bool? then Some(o[key].b) else None
  }

  function ObjectField(o: JsonObject, key: string): (r: Option<JsonObject>)
    ensures r.Some? <==> key in o && o[key].Object?
    ensures r.Some? ==> o[key] == Object(r.value)
  {
    if key in o && o[key].Object? then Some(o[key].fields) else None
  }

  function StringArrayField(o: JsonObject, key: string): (r: Option<seq<string>>)
    ensures r.Some? <==> key in o && o[key].Array? && AllStrings(o[key].items)
    ensures r.Some? ==> o[key] == Array(StringsToJson(r.value))
  {
    if key in o && o[key].Array? && AllStrings(o[key].items) then
      var xs := Strings(o[key].items);
      assert StringsToJson(xs) == o[key].items;
      Some(xs)
    else None
  }

  // ---- Decodable accessors: `container.decode` / `decodeIfPresent` ----------

  /** The `DecodingError` cases the model distinguishes. */
  datatype DecodeError =
    | NotAnObject
    | KeyNotFound(key: string)
    | ValueNotFound(key: string)
    | TypeMismatch(key: string)

  /** A number without a fractional part. */
  predicate IsIntegral(x: real) {
    x.Floor as real == x
  }

  /** Swift's `Int`, 64 bits wide on the devices the app runs on. */
  type Int64 = x: int | -0x8000_0000_0000_0000 <= x < 0x8000_0000_0000_0000

  /** A JSON number `JSONDecoder` accepts for an `Int`: integral and within 64 bits. */
  predicate FitsInt(x: real) {
    IsIntegral(x) && -0x8000_0000_0000_0000 as real <= x < 0x8000_0000_0000_0000 as real
  }

  /** The key is missing or null: `decodeIfPresent` yields nil. */
  predicate Absent(o: JsonObject, key: string) {
    key !in o || o[key] == Null
  }

  function DecodeDoubleIfPresent(o: JsonObject, key: string): (r: Result<Option<real>, DecodeError>)
    ensures r == Ok(None) <==> Absent(o, key)
    ensures r.Ok? && r.value.Some? <==> key in o && o[key].Number?
    ensures r.Ok? && r.value.Some? ==> o[key] == Number(r.value.value)
  {
    if key !in o || o[key].Null? then Ok(None)
    else if o[key].Number? then Ok(Some(o[key].n))
    else Err(TypeMismatch(key))
  }

  function DecodeIntIfPresent(o: JsonObject, key: string): (r: Result<Option<Int64>, DecodeError>)
    ensures r == Ok(None) <==> Absent(o, key)
    ensures r.Ok? && r.value.Some? <==> key in o && o[key].Number? && FitsInt(o[key].n)
    ensures r.Ok? && r.value.Some? ==> o[key] == Number(r.value.value as real)
  {
    if key !in o || o[key].Null? then Ok(None)
    else if o[key].Number? && FitsInt(o[key].n) then Ok(Some(o[key].n.Floor))
    else Err(TypeMismatch(key))
  }

  /** A whole number beyond 64 bits is a type mismatch, as `JSONDecoder` throws for an `Int`. */
  lemma DecodeIntRejectsOverflow(key: string)
    ensures DecodeIntIfPresent(map[key := Number(10000000000000000000.0)], key) == Err(TypeMismatch(key))
    ensures DecodeIntIfPresent(map[key := Number(9223372036854775807.0)], key) == Ok(Some(9223372036854775807))
  {
    assert (10000000000000000000.0).Floor == 10000000000000000000;
    assert (9223372036854775807.0).Floor == 9223372036854775807;
  }

  function DecodeStringIfPresent(o: JsonObject, key: string): (r: Result<Option<string>, DecodeError>)
    ensures r == Ok(None) <==> Absent(o, key)
    ensures r.Ok? && r.value.Some? <==> key in o && o[key].Str?
    ensures r.Ok? && r.value.Some? ==> o[key] == Str(r.value.value)
  {
    if key !in o || o[key].Null? then Ok(None)
    else if o[key].Str? then Ok(Some(o[key].str))
    else Err(TypeMismatch(key))
  }

  /** `decode(T.self, forKey:)`: a missing key and a null are errors too. */
  function Required<T>(key: string, o: JsonObject, r: Result<Option<T>, DecodeError>): (d: Result<T, DecodeError>)
    ensures d.Ok? <==> r.Ok? && r.value.Some?
    ensures d.Ok? ==> r == Ok(Some(d.value))
    ensures r == Ok(None) && key !in o ==> d == Err(KeyNotFound(key))
  {
    match r
    case Err(e) => Err(e)
    case Ok(Some(v)) => Ok(v)
    case Ok(None) => if key in o then Err(ValueNotFound(key)) else Err(KeyNotFound(key))
  }

  function DecodeDouble(o: JsonObject, key: string): (r: Result<real, DecodeError>)
    ensures r.Ok? <==> key in o && o[key].Number?
    ensures r.Ok? ==> o[key] == Number(r.value)
    ensures key !in o ==> r == Err(KeyNotFound(key))
  {
    Required(key, o, DecodeDoubleIfPresent(o, key))
  }

  function DecodeInt(o: JsonObject, key: string): (r: Result<Int64, DecodeError>)
    ensures r.Ok? <==> key in o && o[key].Number? && FitsInt(o[key].n)
    ensures r.Ok? ==> o[key] == Number(r.value as real)
    ensures key !in o ==> r == Err(KeyNotFound(key))
  {
    Required(key, o, DecodeIntIfPresent(o, key))
  }

  function DecodeString(o: JsonObject, key: string): (r: Result<string, DecodeError>)
    ensures r.Ok? <==> key in o && o[key].Str?
    ensures r.Ok? ==> o[key] == Str(r.value)
    ensures key !in o ==> r == Err(KeyNotFound(key))
  {
    Required(key, o, DecodeStringIfPresent(o, key))
  }
}

=== FILE: jwt.dfy ===
/**
  Reading the payload of a JSON Web Token the way `SignInView.decodeJWT` does:
  the token is a JWS compact serialisation (section 7.1 of RFC 7515) whose
  second dot-separated part is the base64url-encoded payload (section 2 of
  RFC 7515, section 5 of RFC 4648). That part is mapped back to the standard
  alphabet, padded with `=` to whole quanta, base 64 decoded, and parsed as a
  JSON object. The header and the signature are never looked at.

  Turning the decoded bytes into UTF-8 text and parsing it as JSON are
  Foundation's; they are the parameter `parse`, which yields the parsed value
  or nothing.
*/
module Jwt {
  import opened Wrappers
  import opened Json
  import Base64

  const Dot: char := '.'

  // ---- Splitting ------------------------------------------------------------

  /** The position of the first occurrence of c in s. */
  function IndexOf(s: string, c: char): (r: Option<nat>)
    ensures r.None? <==> c !in s
    ensures r.Some? ==> r.value < |s| && s[r.value] == c && c !in s[..r.value]
  {
    if |s| == 0 then None
    else if s[0] == c then Some(0)
    else
      match IndexOf(s[1..], c)
      case None => None
      case Some(i) =>
        assert s[1..][..i] == s[1..i + 1];
        assert s[..i + 1] == [s[0]] + s[1..i + 1];
        Some(i + 1)
  }

  /**
    Swift's `split(separator:)` with its default of omitting empty pieces:
    the maximal non-empty runs of s that do not contain sep, in order.
  */
  function Split(s: string, sep: char): (pieces: seq<string>)
    ensures forall i | 0 <= i < |pieces| :: |pieces[i]| > 0 && sep !in pieces[i]
    ensures sep !in s ==> pieces == (if s == [] then [] else [s])
    decreases |s|
  {
    match IndexOf(s, sep)
    case None => if s == [] then [] else [s]
    case Some(i) => (if i == 0 then [] else [s[..i]]) + Split(s[i + 1..], sep)
  }

  /** A leading run without the separator becomes the first piece. */
  lemma SplitFirst(a: string, sep: char, rest: string)
    requires |a| > 0 && sep !in a
    ensures Split(a + [sep] + rest, sep) == [a] + Split(rest, sep)
  {
    var s := a + [sep] + rest;
    var r := IndexOf(s, sep);
    assert s[|a|] == sep;
    assert r.Some?;
    assert s[..|a|] == a;
    assert s[|a| + 1..] == rest;
  }

  /** A leading separator produces no piece. */
  lemma SplitLeadingSeparator(sep: char, rest: string)
    ensures Split([sep] + rest, sep) == Split(rest, sep)
  {
    assert IndexOf([sep] + rest, sep) == Some(0);
    assert ([sep] + rest)[1..] == rest;
  }

  /** Three non-empty dot-free parts joined by dots split back into those three. */
  lemma SplitThree(h: string, p: string, sig: string)
    requires |h| > 0 && |p| > 0 && |sig| > 0
    requires Dot !in h && Dot !in p && Dot !in sig
    ensures Split(h + "." + p + "." + sig, Dot) == [h, p, sig]
  {
    assert h + "." + p + "." + sig == h + [Dot] + (p + [Dot] + sig);
    SplitFirst(h, Dot, p + [Dot] + sig);
    SplitFirst(p, Dot, sig);
  }

  /** Empty pieces are dropped: a token with two adjacent dots has two parts. */
  lemma AdjacentDotsDropPiece()
    ensures |Split("a..b", Dot)| == 2
  {
    assert "a..b" == "a" + [Dot] + ("." + "b");
    SplitFirst("a", Dot, "." + "b");
    assert IndexOf("." + "b", Dot) == Some(0);
    assert ("." + "b")[1..] == "b";
  }

  /** A leading dot is dropped too, so ".a.b.c" still has three parts. */
  lemma LeadingDotDropped()
    ensures Split(".a.b.c", Dot) == ["a", "b", "c"]
  {
    assert ".a.b.c" == [Dot] + "a.b.c";
    SplitLeadingSeparator(Dot, "a.b.c");
    SplitThree("a", "b", "c");
    assert "a" + "." + "b" + "." + "c" == "a.b.c";
  }

  // ---- Alphabet and padding -------------------------------------------------

  /** `-` becomes `+`, `_` becomes `/`, every other character is kept. */
  function UrlToStandardChar(c: char): char {
    if c == '-' then '+' else if c == '_' then '/' else c
  }

  function StandardToUrlChar(c: char): char {
    if c == '+' then '-' else if c == '/' then '_' else c
  }

  /** The two `replacingOccurrences` calls, applied position by position. */
  function UrlToStandard(s: string): (r: string)
    ensures |r| == |s|
    ensures forall i | 0 <= i < |s| :: r[i] == UrlToStandardChar(s[i])
    ensures '-' !in r && '_' !in r
  {
    seq(|s|, i requires 0 <= i < |s| => UrlToStandardChar(s[i]))
  }

  /** The base64url alphabet of section 5 of RFC 4648, as a JWS signer writes it. */
  function StandardToUrl(s: string): (r: string)
    ensures |r| == |s|
    ensures forall i | 0 <= i < |s| :: r[i] == StandardToUrlChar(s[i])
  {
    seq(|s|, i requires 0 <= i < |s| => StandardToUrlChar(s[i]))
  }

  /** Mapping to the URL alphabet and back is the identity on standard text. */
  lemma UrlRoundTrip(s: string)
    requires '-' !in s && '_' !in s
    ensures UrlToStandard(StandardToUrl(s)) == s
  {
  }

  /** The string with the fewest `=` appended that makes its length a multiple of four. */
  function Pad(s: string): (r: string)
    ensures |r| % 4 == 0 && |s| <= |r| < |s| + 4
    ensures r[..|s|] == s
    ensures forall i | |s| <= i < |r| :: r[i] == Base64.PadChar
    ensures |s| % 4 == 0 ==> r == s
  {
    s + Base64.Pads(Base64.PadCount(|s|))
  }

  /** The `while base64Payload.count % 4 != 0` loop of the source. */
  method PadByLoop(s: string) returns (r: string)
    ensures r == Pad(s)
  {
    r := s;
    while |r| % 4 != 0
      invariant |s| <= |r| <= |s| + Base64.PadCount(|s|)
      invariant r == s + Base64.Pads(|r| - |s|)
      decreases |s| + Base64.PadCount(|s|) - |r|
    {
      r := r + [Base64.PadChar];
    }
  }

  // ---- decodeJWT ------------------------------------------------------------

  /** The standard-alphabet, padded text of a payload part. */
  function PayloadText(part: string): string {
    Pad(UrlToStandard(part))
  }

  /**
    `decodeJWT`: the payload object, or nothing when the token does not have
    exactly three non-empty parts, when the payload part is not base 64, or
    when its bytes are not a JSON object.
  */
  function DecodeJwt(token: string, parse: seq<Base64.byte> -> Option<Json>): (r: Option<JsonObject>)
    ensures r.Some? ==> |Split(token, Dot)| == 3
    ensures r.Some? <==>
      && |Split(token, Dot)| == 3
      && Base64.Decode(PayloadText(Split(token, Dot)[1])).Some?
      && parse(Base64.Decode(PayloadText(Split(token, Dot)[1])).value).Some?
      && parse(Base64.Decode(PayloadText(Split(token, Dot)[1])).value).value.Object?
    ensures r.Some? ==> parse(Base64.Decode(PayloadText(Split(token, Dot)[1])).value) == Some(Object(r.value))
  {
    var parts := Split(token, Dot);
    if |parts| != 3 then None
    else
      match Base64.Decode(PayloadText(parts[1]))
      case None => None
      case Some(bytes) =>
        match parse(bytes)
        case Some(Object(o)) => Some(o)
        case _ => None
  }

  /** The payload is all that matters: header and signature can be anything. */
  lemma HeaderAndSignatureIgnored(h1: string, h2: string, p: string, s1: string, s2: string,
                                  parse: seq<Base64.byte> -> Option<Json>)
    requires |h1| > 0 && |h2| > 0 && |p| > 0 && |s1| > 0 && |s2| > 0
    requires Dot !in h1 && Dot !in h2 && Dot !in p && Dot !in s1 && Dot !in s2
    ensures DecodeJwt(h1 + "." + p + "." + s1, parse) == DecodeJwt(h2 + "." + p + "." + s2, parse)
  {
    SplitThree(h1, p, s1);
    SplitThree(h2, p, s2);
  }

  /** A token whose part count is not three is refused whatever its payload. */
  lemma WrongPartCountRefused(token: string, parse: seq<Base64.byte> -> Option<Json>)
    requires |Split(token, Dot)| != 3
    ensures DecodeJwt(token, parse) == None
  {
  }

  // ---- Round trip with a JWS signer ------------------------------------------

  /** base64url without padding, as section 2 of RFC 7515 prescribes. */
  function UrlEncode(b: seq<Base64.byte>): (s: string)
    ensures |s| > 0 <==> |b| > 0
    ensures Dot !in s
  {
    var u := Base64.EncodeUnpadded(b);
    var s := StandardToUrl(u);
    assert forall i | 0 <= i < |s| :: s[i] != Dot by {
      forall i | 0 <= i < |s| ensures s[i] != Dot {
        assert Base64.IsAlphabetChar(u[i]);
      }
    }
    s
  }

  /**
    A token built by a JWS signer from a non-empty payload decodes to exactly
    what `parse` makes of the payload bytes, for any header and signature.
  */
  lemma DecodeSignedToken(h: string, payload: seq<Base64.byte>, sig: string,
                          parse: seq<Base64.byte> -> Option<Json>)
    requires |h| > 0 && |payload| > 0 && |sig| > 0
    requires Dot !in h && Dot !in sig
    ensures DecodeJwt(h + "." + UrlEncode(payload) + "." + sig, parse) ==
      (match parse(payload) case Some(Object(o)) => Some(o) case _ => None)
  {
    var u := Base64.EncodeUnpadded(payload);
    var part := UrlEncode(payload);
    SplitThree(h, part, sig);
    assert '-' !in u && '_' !in u by {
      forall i | 0 <= i < |u| ensures u[i] != '-' && u[i] != '_' {
        assert Base64.IsAlphabetChar(u[i]);
      }
    }
    UrlRoundTrip(u);
    assert PayloadText(part) == Base64.Encode(payload);
    Base64.DecodeEncode(payload);
  }
}

=== FILE: meals.dfy ===
/**
  The `Decodable` records of `MealStruct.swift`: a day's aggregate
  (`DailyEntry`, decoded leniently, with defaults) and a logged meal (`Meal`,
  decoded strictly by the synthesised decoder), plus the calorie total of a
  day's meals.
*/
module Meals {
  import opened Wrappers
  import opened Json

  const UnknownDate: string := "Inconnue"

  /** A server timestamp: `_seconds` and `_nanoseconds`. */
  datatype Timestamp = Timestamp(seconds: Int64, nanoseconds: Int64)

  datatype DailyEntry = DailyEntry(calories: real, caloriesBurn: real, steps: Int64, date: string, createdAt: Timestamp)

  datatype Meal = Meal(id: Option<string>, name: string, calories: real, quantity: string, imageUrl: string, createdAt: Timestamp)

  // ---- DailyEntry -----------------------------------------------------------

  /** A key the lenient decoder accepts: missing, null, or of the expected kind. */
  predicate OptionalNumber(o: JsonObject, key: string) {
    Absent(o, key) || o[key].Number?
  }

  predicate OptionalInt(o: JsonObject, key: string) {
    Absent(o, key) || (o[key].Number? && FitsInt(o[key].n))
  }

  predicate OptionalString(o: JsonObject, key: string) {
    Absent(o, key) || o[key].Str?
  }

  /** `DailyEntry.CreatedAt.init(from:)`: both parts default to zero. */
  function DecodeEntryTimestamp(v: Json): (r: Result<Timestamp, DecodeError>)
    ensures r.Ok? <==> v.Object? && OptionalInt(v.fields, "_seconds") && OptionalInt(v.fields, "_nanoseconds")
    ensures r.Ok? && Absent(v.fields, "_seconds") ==> r.value.seconds == 0
    ensures r.Ok? && Absent(v.fields, "_nanoseconds") ==> r.value.nanoseconds == 0
    ensures r.Ok? && !Absent(v.fields, "_seconds") ==> v.fields["_seconds"] == Number(r.value.seconds as real)
    ensures r.Ok? && !Absent(v.fields, "_nanoseconds") ==> v.fields["_nanoseconds"] == Number(r.value.nanoseconds as real)
  {
    if !v.Object? then Err(NotAnObject)
    else
      match DecodeIntIfPresent(v.fields, "_seconds")
      case Err(e) => Err(e)
      case Ok(s) =>
        match DecodeIntIfPresent(v.fields, "_nanoseconds")
        case Err(e) => Err(e)
        case Ok(ns) => Ok(Timestamp(s.GetOr(0), ns.GetOr(0)))
  }

  /**
    `DailyEntry.init(from:)`. Missing or null numbers decode to zero and a
    missing or null date to "Inconnue"; only `createdAt` is mandatory. A value
    of the wrong kind is still an error.
  */
  function DecodeDailyEntry(v: Json): (r: Result<DailyEntry, DecodeError>)
    ensures r.Ok? <==>
      && v.Object?
      && OptionalNumber(v.fields, "calories") && OptionalNumber(v.fields, "caloriesBurn")
      && OptionalInt(v.fields, "steps") && OptionalString(v.fields, "date")
      && "createdAt" in v.fields && DecodeEntryTimestamp(v.fields["createdAt"]).Ok?
    ensures r.Ok? ==>
      && r.value.calories == (if Absent(v.fields, "calories") then 0.0 else v.fields["calories"].n)
      && r.value.caloriesBurn == (if Absent(v.fields, "caloriesBurn") then 0.0 else v.fields["caloriesBurn"].n)
      && r.value.steps == (if Absent(v.fields, "steps") then 0 else v.fields["steps"].n.Floor)
      && r.value.date == (if Absent(v.fields, "date") then UnknownDate else v.fields["date"].str)
      && DecodeEntryTimestamp(v.fields["createdAt"]) == Ok(r.value.createdAt)
    ensures v.Object? && "createdAt" !in v.fields ==> r.Err?
  {
    if !v.Object? then Err(NotAnObject)
    else
      var o := v.fields;
      match DecodeDoubleIfPresent(o, "calories")
      case Err(e) => Err(e)
      case Ok(calories) =>
        match DecodeDoubleIfPresent(o, "caloriesBurn")
        case Err(e) => Err(e)
        case Ok(burn) =>
          match DecodeIntIfPresent(o, "steps")
          case Err(e) => Err(e)
          case Ok(steps) =>
            match DecodeStringIfPresent(o, "date")
            case Err(e) => Err(e)
            case Ok(date) =>
              if "createdAt" !in o then Err(KeyNotFound("createdAt"))
              else if o["createdAt"].Null? then Err(ValueNotFound("createdAt"))
              else
                match DecodeEntryTimestamp(o["createdAt"])
                case Err(e) => Err(e)
                case Ok(t) => Ok(DailyEntry(calories.GetOr(0.0), burn.GetOr(0.0), steps.GetOr(0), date.GetOr(UnknownDate), t))
  }

  /** The document a server holding every field would send for an entry. */
  function EncodeTimestamp(t: Timestamp): Json {
    Object(map["_seconds" := Number(t.seconds as real), "_nanoseconds" := Number(t.nanoseconds as real)])
  }

  function EncodeDailyEntry(e: DailyEntry): Json {
    Object(map[
      "calories" := Number(e.calories),
      "caloriesBurn" := Number(e.caloriesBurn),
      "steps" := Number(e.steps as real),
      "date" := Str(e.date),
      "createdAt" := EncodeTimestamp(e.createdAt)])
  }

  /** A complete document decodes to the entry it was made from. */
  lemma DailyEntryRoundTrip(e: DailyEntry)
    ensures DecodeDailyEntry(EncodeDailyEntry(e)) == Ok(e)
  {
    var t := EncodeTimestamp(e.createdAt);
    assert DecodeEntryTimestamp(t) == Ok(e.createdAt);
  }

  /**
    Partial documents are tolerated: a document holding only `createdAt`
    decodes to zero calories, zero burn, zero steps and the unknown date.
  */
  lemma DailyEntryDefaults(t: Timestamp)
    ensures DecodeDailyEntry(Object(map["createdAt" := EncodeTimestamp(t)])) ==
      Ok(DailyEntry(0.0, 0.0, 0, UnknownDate, t))
  {
    assert DecodeEntryTimestamp(EncodeTimestamp(t)) == Ok(t);
  }

  /** A missing date and the literal date "Inconnue" cannot be told apart. */
  lemma UnknownDateIsAmbiguous(e: DailyEntry)
    requires e.date == UnknownDate
    ensures DecodeDailyEntry(EncodeDailyEntry(e)) ==
      DecodeDailyEntry(Object(EncodeDailyEntry(e).fields - {"date"}))
  {
    DailyEntryRoundTrip(e);
    assert DecodeEntryTimestamp(EncodeTimestamp(e.createdAt)) == Ok(e.createdAt);
  }

  // ---- Meal -------------------------------------------------------------------

  /** The top-level `CreatedAt`: both parts are required integers. */
  function DecodeTimestamp(v: Json): (r: Result<Timestamp, DecodeError>)
    ensures r.Ok? <==> v.Object? && DecodeInt(v.fields, "_seconds").Ok? && DecodeInt(v.fields, "_nanoseconds").Ok?
    ensures r.Ok? ==>
      && v.fields["_seconds"] == Number(r.value.seconds as real)
      && v.fields["_nanoseconds"] == Number(r.value.nanoseconds as real)
  {
    if !v.Object? then Err(NotAnObject)
    else
      match DecodeInt(v.fields, "_seconds")
      case Err(e) => Err(e)
      case Ok(s) =>
        match DecodeInt(v.fields, "_nanoseconds")
        case Err(e) => Err(e)
        case Ok(ns) => Ok(Timestamp(s, ns))
  }

  /** The synthesised `Meal` decoder: only `id` may be missing or null. */
  function DecodeMeal(v: Json): (r: Result<Meal, DecodeError>)
    ensures r.Ok? <==>
      && v.Object?
      && DecodeStringIfPresent(v.fields, "id").Ok?
      && DecodeString(v.fields, "name").Ok?
      && DecodeDouble(v.fields, "calories").Ok?
      && DecodeString(v.fields, "quantity").Ok?
      && DecodeString(v.fields, "image_url").Ok?
      && "createdAt" in v.fields && DecodeTimestamp(v.fields["createdAt"]).Ok?
    ensures r.Ok? ==>
      && (r.value.id.None? <==> Absent(v.fields, "id"))
      && (r.value.id.Some? ==> v.fields["id"] == Str(r.value.id.value))
      && {"name", "calories", "quantity", "image_url", "createdAt"} <= v.fields.Keys
      && v.fields["name"] == Str(r.value.name)
      && v.fields["calories"] == Number(r.value.calories)
      && v.fields["quantity"] == Str(r.value.quantity)
      && v.fields["image_url"] == Str(r.value.imageUrl)
      && DecodeTimestamp(v.fields["createdAt"]) == Ok(r.value.createdAt)
    ensures v.Object? && ("name" !in v.fields || "calories" !in v.fields || "createdAt" !in v.fields) ==> r.Err?
  {
    if !v.Object? then Err(NotAnObject)
    else
      var o := v.fields;
      match DecodeStringIfPresent(o, "id")
      case Err(e) => Err(e)
      case Ok(id) =>
        match DecodeString(o, "name")
        case Err(e) => Err(e)
        case Ok(name) =>
          match DecodeDouble(o, "calories")
          case Err(e) => Err(e)
          case Ok(calories) =>
            match DecodeString(o, "quantity")
            case Err(e) => Err(e)
            case Ok(quantity) =>
              match DecodeString(o, "image_url")
              case Err(e) => Err(e)
              case Ok(image) =>
                if "createdAt" !in o then Err(KeyNotFound("createdAt"))
                else if o["createdAt"].Null? then Err(ValueNotFound("createdAt"))
                else
                  match DecodeTimestamp(o["createdAt"])
                  case Err(e) => Err(e)
                  case Ok(t) => Ok(Meal(id, name, calories, quantity, image, t))
  }

  function EncodeMeal(m: Meal): Json {
    var fields := map[
      "name" := Str(m.name),
      "calories" := Number(m.calories),
      "quantity" := Str(m.quantity),
      "image_url" := Str(m.imageUrl),
      "createdAt" := EncodeTimestamp(m.createdAt)];
    match m.id
    case None => Object(fields)
    case Some(id) => Object(fields["id" := Str(id)])
  }

  lemma MealRoundTrip(m: Meal)
    ensures DecodeMeal(EncodeMeal(m)) == Ok(m)
  {
    assert DecodeTimestamp(EncodeTimestamp(m.createdAt)) == Ok(m.createdAt);
  }

  /** The two objects hold the same value, or nothing, under key. */
  predicate SameAt(o: JsonObject, o': JsonObject, key: string) {
    (key in o <==> key in o') && (key in o ==> o[key] == o'[key])
  }

  /** The meal decoder reads only its six keys. */
  lemma DecodeMealReadsOnlyItsKeys(o: JsonObject, o': JsonObject)
    requires SameAt(o, o', "id") && SameAt(o, o', "name") && SameAt(o, o', "calories")
    requires SameAt(o, o', "quantity") && SameAt(o, o', "image_url") && SameAt(o, o', "createdAt")
    ensures DecodeMeal(Object(o)) == DecodeMeal(Object(o'))
  {
  }

  /** Keys the decoder does not know are ignored: a server reply carrying more fields still decodes. */
  lemma MealIgnoresExtraKeys(m: Meal, key: string, extra: Json)
    requires key !in {"id", "name", "calories", "quantity", "image_url", "createdAt"}
    ensures DecodeMeal(Object(EncodeMeal(m).fields[key := extra])) == Ok(m)
  {
    var o := EncodeMeal(m).fields;
    MealRoundTrip(m);
    DecodeMealReadsOnlyItsKeys(o, o[key := extra]);
  }

  /** `decode([Meal].self, from:)`: all elements decode, or the whole list fails. */
  function DecodeMealList(v: Json): (r: Result<seq<Meal>, DecodeError>)
    ensures r.Ok? ==> v.Array? && |r.value| == |v.items|
    ensures r.Ok? ==> forall i | 0 <= i < |v.items| :: DecodeMeal(v.items[i]) == Ok(r.value[i])
    ensures v.Array? && (forall i | 0 <= i < |v.items| :: DecodeMeal(v.items[i]).Ok?) ==> r.Ok?
  {
    if !v.Array? then Err(NotAnObject)
    else DecodeMeals(v.items)
  }

  function DecodeMeals(items: seq<Json>): (r: Result<seq<Meal>, DecodeError>)
    ensures r.Ok? ==> |r.value| == |items|
    ensures r.Ok? ==> forall i | 0 <= i < |items| :: DecodeMeal(items[i]) == Ok(r.value[i])
    ensures (forall i | 0 <= i < |items| :: DecodeMeal(items[i]).Ok?) ==> r.Ok?
  {
    if |items| == 0 then Ok([])
    else
      match DecodeMeal(items[0])
      case Err(e) => Err(e)
      case Ok(m) =>
        match DecodeMeals(items[1..])
        case Err(e) => Err(e)
        case Ok(ms) => Ok([m] + ms)
  }

  // ---- Calorie total ----------------------------------------------------------

  /** `meals.reduce(0) { $0 + $1.calories }`, folding from the left. */
  function TotalCalories(meals: seq<Meal>): real
    decreases |meals|
  {
    if |meals| == 0 then 0.0 else TotalCalories(meals[..|meals| - 1]) + meals[|meals| - 1].calories
  }

  /** The total of a day split in two is the sum of the two totals. */
  lemma {:induction false} TotalCaloriesAppend(a: seq<Meal>, b: seq<Meal>)
    ensures TotalCalories(a + b) == TotalCalories(a) + TotalCalories(b)
    decreases |b|
  {
    if |b| == 0 {
      assert a + b == a;
    } else {
      var last := b[|b| - 1];
      assert (a + b)[..|a + b| - 1] == a + b[..|b| - 1];
      TotalCaloriesAppend(a, b[..|b| - 1]);
    }
  }

  /** Meals with no negative calories give a total no smaller than any one of them. */
  lemma {:induction false} TotalCaloriesBounds(meals: seq<Meal>, i: nat)
    requires i < |meals|
    requires forall j | 0 <= j < |meals| :: meals[j].calories >= 0.0
    ensures 0.0 <= meals[i].calories <= TotalCalories(meals)
    decreases |meals|
  {
    var n := |meals|;
    TotalCaloriesNonNegative(meals[..n - 1]);
    if i < n - 1 {
      TotalCaloriesBounds(meals[..n - 1], i);
    }
  }

  lemma {:induction false} TotalCaloriesNonNegative(meals: seq<Meal>)
    requires forall j | 0 <= j < |meals| :: meals[j].calories >= 0.0
    ensures TotalCalories(meals) >= 0.0
    decreases |meals|
  {
    if |meals| > 0 {
      TotalCaloriesNonNegative(meals[..|meals| - 1]);
    }
  }
}

=== FILE: numerics.dfy ===
/**
  Swift's integer conversions and remainder, which round toward zero where
  Dafny's `Floor`, `/` and `%` round toward negative infinity.
*/
module Numerics {

  /** `Int(x)` for a `Double` x: the fractional part is dropped. */
  function Truncate(x: real): (r: int)
    ensures x >= 0.0 ==> 0.0 <= r as real <= x < r as real + 1.0
    ensures x < 0.0 ==> r as real - 1.0 < x <= r as real <= 0.0
  {
    if x >= 0.0 then x.Floor else -((-x).Floor)
  }

  /** Integral values are kept exactly. */
  lemma TruncateIntegral(n: int)
    ensures Truncate(n as real) == n
  {
  }

  /** Swift's `a % b`: the remainder has the sign of a. */
  function Remainder(a: int, b: int): (r: int)
    requires b > 0
    ensures a >= 0 ==> 0 <= r < b
    ensures a < 0 ==> -b < r <= 0
    ensures (a - r) % b == 0
  {
    RemainderOffsetIsMultiple(a, b);
    if a >= 0 then a % b else -((-a) % b)
  }

  /** The dividend minus Swift's remainder is a whole multiple of the divisor. */
  lemma RemainderOffsetIsMultiple(a: int, b: int)
    requires b > 0
    ensures (a - (if a >= 0 then a % b else -((-a) % b))) % b == 0
  {
    if a < 0 {
      var q := (-a) / b;
      assert -a == q * b + (-a) % b;
      assert (-q) * b == -(q * b);
      ModUnique(a + (-a) % b, b, -q, 0);
    } else {
      ModUnique(a - a % b, b, a / b, 0);
    }
  }

  /** Euclidean division is unique: x = k * b + r with 0 <= r < b fixes r as x % b. */
  lemma ModUnique(x: int, b: int, k: int, r: int)
    requires b > 0 && 0 <= r < b && x == k * b + r
    ensures x % b == r
  {
    var k', r' := x / b, x % b;
    assert x == k' * b + r';
    assert (k - k') * b == r' - r;
    MulBounds(k - k', b);
  }

  /** A non-zero multiple of b is at least b away from zero. */
  lemma MulBounds(n: int, b: int)
    requires b > 0
    ensures n >= 1 ==> n * b >= b
    ensures n <= -1 ==> n * b <= -b
  {
  }

  /** On a non-negative dividend Swift's remainder is Dafny's. */
  lemma RemainderOfNonNegative(a: int, b: int)
    requires a >= 0 && b > 0
    ensures Remainder(a, b) == a % b
  {
  }

  /** The two differ on a negative dividend: -1 % 7 is -1 in Swift and 6 in Dafny. */
  lemma RemainderOfNegative()
    ensures Remainder(-1, 7) == -1 && -1 % 7 == 6
  {
  }
}

=== FILE: nutriscore.dfy ===
/**
  The two nutri-score colourings of the source: the scan screen's
  (`ProductScanView.nutriScoreColor`) and the fridge's
  (`FridgeView.nutriScoreColor`, repeated verbatim in `ProductDetailView`).
  Both compare the lower-cased grade with the letters a to e.
*/
module NutriScore {
  import opened Wrappers

  datatype Grade = A | B | C | D | E

  /** The colours the two mappings use; `FadedRed` is red at 0.8 opacity. */
  datatype Color = Green | Yellow | Orange | Red | FadedRed | Gray

  /**
    The grade a string names once lower-cased: exactly one letter from a to e,
    in either case. No other character lower-cases to one of these letters, so
    the ASCII folding used here agrees with Swift's `lowercased()` on them.
  */
  function GradeOf(s: string): (g: Option<Grade>)
    ensures g.Some? <==> |s| == 1 && s[0] in "abcdeABCDE"
  {
    if |s| != 1 then None
    else
      var c := s[0];
      if c == 'a' || c == 'A' then Some(A)
      else if c == 'b' || c == 'B' then Some(B)
      else if c == 'c' || c == 'C' then Some(C)
      else if c == 'd' || c == 'D' then Some(D)
      else if c == 'e' || c == 'E' then Some(E)
      else None
  }

  /** The grade's lower-case letter. */
  function Letter(g: Grade): string {
    match g
    case A => "a"
    case B => "b"
    case C => "c"
    case D => "d"
    case E => "e"
  }

  /** The grade's upper-case letter. */
  function UpperLetter(g: Grade): string {
    match g
    case A => "A"
    case B => "B"
    case C => "C"
    case D => "D"
    case E => "E"
  }

  /** Every grade is read back from its letter, in either case. */
  lemma GradeOfLetter(g: Grade)
    ensures GradeOf(Letter(g)) == Some(g)
    ensures GradeOf(UpperLetter(g)) == Some(g)
  {
  }

  /** The scan screen: a and b green, c yellow, d orange, e red, anything else gray. */
  function ScanColor(grade: string): (c: Color)
    ensures c == Gray <==> GradeOf(grade).None?
    ensures c == Green <==> GradeOf(grade) == Some(A) || GradeOf(grade) == Some(B)
    ensures c == Yellow <==> GradeOf(grade) == Some(C)
    ensures c == Orange <==> GradeOf(grade) == Some(D)
    ensures c == Red <==> GradeOf(grade) == Some(E)
    ensures c != FadedRed
  {
    match GradeOf(grade)
    case Some(A) => Green
    case Some(B) => Green
    case Some(C) => Yellow
    case Some(D) => Orange
    case Some(E) => Red
    case None => Gray
  }

  /**
    The fridge table, defined in `FridgeView` and drawn by `ProductDetailView`:
    a green, b yellow, c orange, d red, e faded red, anything else gray.
  */
  function FridgeColor(grade: string): (c: Color)
    ensures c == Gray <==> GradeOf(grade).None?
    ensures c == Green <==> GradeOf(grade) == Some(A)
    ensures c == Yellow <==> GradeOf(grade) == Some(B)
    ensures c == Orange <==> GradeOf(grade) == Some(C)
    ensures c == Red <==> GradeOf(grade) == Some(D)
    ensures c == FadedRed <==> GradeOf(grade) == Some(E)
  {
    match GradeOf(grade)
    case Some(A) => Green
    case Some(B) => Yellow
    case Some(C) => Orange
    case Some(D) => Red
    case Some(E) => FadedRed
    case None => Gray
  }

  /** The fridge gives every grade its own colour; the scan screen merges a and b. */
  lemma FridgeColorInjective(g: string, h: string)
    requires GradeOf(g).Some? && GradeOf(h).Some?
    ensures FridgeColor(g) == FridgeColor(h) <==> GradeOf(g) == GradeOf(h)
  {
  }

  /**
    The two screens agree on a grade only for a and for unknown grades; for b,
    c, d and e they show different colours.
  */
  lemma ScreensAgreeOnlyOnAAndUnknown(grade: string)
    ensures ScanColor(grade) == FridgeColor(grade) <==> GradeOf(grade) == Some(A) || GradeOf(grade).None?
  {
  }

  /** The colour of a grade read as text is the colour of its upper-case spelling. */
  lemma ColorsIgnoreCase(g: Grade)
    ensures ScanColor(UpperLetter(g)) == ScanColor(Letter(g))
    ensures FridgeColor(UpperLetter(g)) == FridgeColor(Letter(g))
  {
    GradeOfLetter(g);
  }
}

=== FILE: nutrition.dfy ===
/**
  The `Nutriments` record of `ProductStruct.swift` and its two dictionary
  views: the storage mapping (`asDictionaryBdd`, raw numbers under the
  server's field names) and the display mapping (`asDictionary`, formatted
  text with units under French labels).
*/
module Nutrition {
  import opened Wrappers

  datatype Nutriments = Nutriments(
    id: Option<string>,
    energy: real, energyKcal: real, fat: real, saturatedFat: real,
    sugars: real, salt: real, proteins: real)

  /** The seven nutrition facts, one per numeric field of `Nutriments`. */
  datatype Nutrient = Energy | EnergyKcal | Fat | SaturatedFat | Sugars | Salt | Proteins

  function Value(n: Nutriments, nu: Nutrient): real {
    match nu
    case Energy => n.energy
    case EnergyKcal => n.energyKcal
    case Fat => n.fat
    case SaturatedFat => n.saturatedFat
    case Sugars => n.sugars
    case Salt => n.salt
    case Proteins => n.proteins
  }

  /** Builds a record from a value for each nutrient, with no `id`. */
  function FromValues(f: Nutrient -> real): (n: Nutriments)
    ensures n.id.None? && forall nu :: Value(n, nu) == f(nu)
  {
    Nutriments(None, f(Energy), f(EnergyKcal), f(Fat), f(SaturatedFat), f(Sugars), f(Salt), f(Proteins))
  }

  /** Two records agree on every nutrient and on `id` only if they are equal. */
  lemma ValuesDetermine(n: Nutriments, m: Nutriments)
    requires n.id == m.id
    requires forall nu :: Value(n, nu) == Value(m, nu)
    ensures n == m
  {
    assert Value(n, Energy) == Value(m, Energy);
    assert Value(n, EnergyKcal) == Value(m, EnergyKcal);
    assert Value(n, Fat) == Value(m, Fat);
    assert Value(n, SaturatedFat) == Value(m, SaturatedFat);
    assert Value(n, Sugars) == Value(m, Sugars);
    assert Value(n, Salt) == Value(m, Salt);
    assert Value(n, Proteins) == Value(m, Proteins);
  }

  // ---- Storage mapping --------------------------------------------------------

  function StorageKey(nu: Nutrient): string {
    match nu
    case Energy => "energy"
    case EnergyKcal => "energy-kcal"
    case Fat => "fat"
    case SaturatedFat => "saturatedFat"
    case Sugars => "sugars"
    case Salt => "salt"
    case Proteins => "proteins"
  }

  const StorageKeys: set<string> :=
    {"energy", "energy-kcal", "fat", "saturatedFat", "sugars", "salt", "proteins"}

  /** Different nutrients are stored under different keys. */
  lemma StorageKeyInjective(a: Nutrient, b: Nutrient)
    ensures StorageKey(a) == StorageKey(b) ==> a == b
  {
  }

  /**
    `asDictionaryBdd`: exactly the seven storage keys, each holding its field
    unchanged; `id` is not stored.
  */
  function AsStorage(n: Nutriments): (m: map<string, real>)
    ensures m.Keys == StorageKeys && |m| == 7
    ensures forall nu :: StorageKey(nu) in m && m[StorageKey(nu)] == Value(n, nu)
  {
    map[
      "energy" := n.energy,
      "energy-kcal" := n.energyKcal,
      "fat" := n.fat,
      "saturatedFat" := n.saturatedFat,
      "sugars" := n.sugars,
      "salt" := n.salt,
      "proteins" := n.proteins]
  }

  /** Reads the seven storage keys back, or nothing when one is missing. */
  function FromStorage(m: map<string, real>): (r: Option<Nutriments>)
    ensures r.Some? <==> StorageKeys <= m.Keys
    ensures r.Some? ==> r.value.id.None? && forall nu :: Value(r.value, nu) == m[StorageKey(nu)]
  {
    if StorageKeys <= m.Keys then
      Some(FromValues(nu requires StorageKey(nu) in m => m[StorageKey(nu)]))
    else None
  }

  /** Storing and reading back gives an equal record, except for `id`. */
  lemma StorageRoundTrip(n: Nutriments)
    ensures FromStorage(AsStorage(n)) == Some(n.(id := None))
  {
    var r := FromStorage(AsStorage(n)).value;
    ValuesDetermine(r, n.(id := None));
  }

  /** `id` never reaches the storage mapping. */
  lemma StorageIgnoresId(n: Nutriments, id: Option<string>)
    ensures AsStorage(n.(id := id)) == AsStorage(n)
  {
  }

  // ---- Display mapping --------------------------------------------------------

  function DisplayLabel(nu: Nutrient): string {
    match nu
    case Energy => "Énergie (kJ)"
    case EnergyKcal => "Énergie (kcal)"
    case Fat => "Graisses"
    case SaturatedFat => "Graisses saturées"
    case Sugars => "Sucres"
    case Salt => "Sel"
    case Proteins => "Protéines"
  }

  /** The unit suffix shown after a value, with its leading space. */
  function Unit(nu: Nutrient): string {
    match nu
    case Energy => " kJ"
    case EnergyKcal => " kcal"
    case _ => " g"
  }

  const DisplayLabels: set<string> :=
    {"Énergie (kJ)", "Énergie (kcal)", "Graisses", "Graisses saturées", "Sucres", "Sel", "Protéines"}

  /**
    `asDictionary`: exactly seven distinct labels, each holding its field as
    Swift prints a `Double` (the parameter `format`) followed by its unit.
  */
  function AsDisplay(n: Nutriments, format: real -> string): (m: map<string, string>)
    ensures m.Keys == DisplayLabels && |m| == 7
    ensures forall nu :: DisplayLabel(nu) in m && m[DisplayLabel(nu)] == format(Value(n, nu)) + Unit(nu)
  {
    map[
      "Énergie (kJ)" := format(n.energy) + " kJ",
      "Énergie (kcal)" := format(n.energyKcal) + " kcal",
      "Graisses" := format(n.fat) + " g",
      "Graisses saturées" := format(n.saturatedFat) + " g",
      "Sucres" := format(n.sugars) + " g",
      "Sel" := format(n.salt) + " g",
      "Protéines" := format(n.proteins) + " g"]
  }

  /** Energy is in kilojoules and kilocalories, every other fact in grams. */
  lemma DisplayUnits(n: Nutriments, format: real -> string, nu: Nutrient)
    ensures
      var text := AsDisplay(n, format)[DisplayLabel(nu)];
      var u := if nu == Energy then " kJ" else if nu == EnergyKcal then " kcal" else " g";
      |text| >= |u| && text[|text| - |u|..] == u
  {
  }
}

=== FILE: productscan.dfy ===
/**
  The scanned-product screen (`ProductScanView`): decoding the product-lookup
  reply into a `Product`, the body saved to the fridge, and the consumed-meal
  body with its calorie formula.
*/
module ProductScan {
  import opened Wrappers
  import opened Json
  import opened Http
  import opened Session
  import opened Nutrition
  import Meals

  /** `Product` of `ProductStruct.swift`; a freshly scanned product has no `id`. */
  datatype Product = Product(
    id: Option<string>,
    productName: string,
    ingredientsText: string,
    nutriments: Nutriments,
    nutriscoreGrade: string,
    brands: string,
    categories: string,
    quantity: string,
    labels: string,
    allergens: seq<string>,
    imageUrl: string)

  const MissingDataMessage: string := "Données manquantes"
  const InvalidDataMessage: string := "Données manquantes ou invalides"
  const UnknownProductMessage: string := "Produit inconnu ou non alimentaire"
  const NoTokenMessage: string := "auth-token non disponible"

  /** The ten top-level keys the lookup decoder requires. */
  const ProductKeys: set<string> :=
    {"product_name", "ingredients_text", "nutriscore_grade", "brands", "categories",
     "quantity", "labels", "allergens", "image_url", "nutriments"}

  // ---- Decoding the lookup reply ---------------------------------------------

  /**
    The key the lookup decoder reads each nutrient from. It is the storage key
    except for saturated fat, which it reads from `saturated-fat`.
  */
  function LookupKey(nu: Nutrient): string {
    if nu == SaturatedFat then "saturated-fat" else StorageKey(nu)
  }

  lemma LookupKeyDiffersOnlyForSaturatedFat(nu: Nutrient)
    ensures LookupKey(nu) == StorageKey(nu) <==> nu != SaturatedFat
  {
  }

  /** Each nutrient is the number under its key, or 0.0 when missing or not a number. */
  function LookupNutriments(o: JsonObject): (n: Nutriments)
    ensures n.id.None?
    ensures forall nu :: Value(n, nu) == DoubleField(o, LookupKey(nu)).GetOr(0.0)
  {
    FromValues(nu => DoubleField(o, LookupKey(nu)).GetOr(0.0))
  }

  /** Every required key is present with the type the decoder casts it to. */
  predicate HasProductFields(o: JsonObject) {
    && StringField(o, "product_name").Some?
    && StringField(o, "ingredients_text").Some?
    && StringField(o, "nutriscore_grade").Some?
    && StringField(o, "brands").Some?
    && StringField(o, "categories").Some?
    && StringField(o, "quantity").Some?
    && StringField(o, "labels").Some?
    && StringField(o, "image_url").Some?
    && StringArrayField(o, "allergens").Some?
    && ObjectField(o, "nutriments").Some?
  }

  /** The `if let … as? …` chain of `fetchNutritionalInfo`. */
  function DecodeLookup(o: JsonObject): (r: Option<Product>)
    ensures r.Some? <==> HasProductFields(o)
    ensures r.Some? ==>
      && r.value.id.None?
      && o["product_name"] == Str(r.value.productName)
      && o["ingredients_text"] == Str(r.value.ingredientsText)
      && o["nutriscore_grade"] == Str(r.value.nutriscoreGrade)
      && o["brands"] == Str(r.value.brands)
      && o["categories"] == Str(r.value.categories)
      && o["quantity"] == Str(r.value.quantity)
      && o["labels"] == Str(r.value.labels)
      && o["image_url"] == Str(r.value.imageUrl)
      && o["allergens"] == Array(StringsToJson(r.value.allergens))
      && r.value.nutriments == LookupNutriments(o["nutriments"].fields)
  {
    if HasProductFields(o) then
      Some(Product(
        None,
        o["product_name"].str,
        o["ingredients_text"].str,
        LookupNutriments(o["nutriments"].fields),
        o["nutriscore_grade"].str,
        o["brands"].str,
        o["categories"].str,
        o["quantity"].str,
        o["labels"].str,
        StringArrayField(o, "allergens").value,
        o["image_url"].str))
    else None
  }

  /**
    `fetchNutritionalInfo`'s completion. A missing token fails with 401 before
    any request; any status but 200 is "unknown product" (404) whatever the
    body; a 200 body that parses to something other than an object never
    completes; an object missing a required field is a 500.
  */
  function FetchNutritionalInfo(store: Store, response: Response): (r: Completion<Product>)
    ensures AuthTokenKey !in store ==> r == Completed(Err(Failure(401, NoTokenMessage)))
    ensures AuthTokenKey in store && response.Reply? && response.status != 200 ==>
      r == Completed(Err(Failure(404, UnknownProductMessage)))
    ensures r.NoCompletion? <==>
      AuthTokenKey in store && response.Reply? && response.status == 200 && response.body.Parsed? && !response.body.json.Object?
    ensures r.Completed? && r.result.Ok? ==>
      IsObjectReply(response, 200) && DecodeLookup(ReplyObject(response)) == Some(r.result.value)
    ensures AuthTokenKey in store && IsObjectReply(response, 200) && HasProductFields(ReplyObject(response)) ==>
      r.Completed? && r.result.Ok?
    ensures AuthTokenKey in store && IsObjectReply(response, 200) && !HasProductFields(ReplyObject(response)) ==>
      r == Completed(Err(Failure(500, InvalidDataMessage)))
    ensures AuthTokenKey in store && response == Reply(200, NoData) ==> r == Completed(Err(Failure(500, MissingDataMessage)))
    ensures AuthTokenKey in store && response == Reply(200, Unparseable) ==> r == Completed(Err(SyntaxError))
    ensures AuthTokenKey in store && response.TransportError? ==> r == Completed(Err(Transport))
  {
    if AuthTokenKey !in store then Completed(Err(Failure(401, NoTokenMessage)))
    else
      match response
      case TransportError => Completed(Err(Transport))
      case Reply(status, body) =>
        if status != 200 then Completed(Err(Failure(404, UnknownProductMessage)))
        else
          match body
          case NoData => Completed(Err(Failure(500, MissingDataMessage)))
          case Unparseable => Completed(Err(SyntaxError))
          case Parsed(Object(o)) =>
            (match DecodeLookup(o)
             case Some(p) => Completed(Ok(p))
             case None => Completed(Err(Failure(500, InvalidDataMessage))))
          case Parsed(_) => NoCompletion
  }

  // ---- Saving to the fridge ------------------------------------------------------

  function NumbersToJson(m: map<string, real>): (r: JsonObject)
    ensures r.Keys == m.Keys && forall k | k in m :: r[k] == Number(m[k])
  {
    map k | k in m :: Number(m[k])
  }

  /**
    The body `saveProductFridge` posts: the ten keys the lookup decoder reads,
    holding the product's fields, with the nutriments in their storage mapping.
  */
  function SaveProductBody(p: Product): (body: JsonObject)
    ensures body.Keys == ProductKeys
    ensures body["nutriments"] == Object(NumbersToJson(AsStorage(p.nutriments)))
  {
    map[
      "product_name" := Str(p.productName),
      "ingredients_text" := Str(p.ingredientsText),
      "nutriscore_grade" := Str(p.nutriscoreGrade),
      "brands" := Str(p.brands),
      "categories" := Str(p.categories),
      "quantity" := Str(p.quantity),
      "labels" := Str(p.labels),
      "allergens" := Array(StringsToJson(p.allergens)),
      "image_url" := Str(p.imageUrl),
      "nutriments" := Object(NumbersToJson(AsStorage(p.nutriments)))]
  }

  /**
    Reading a saved body with the lookup decoder gives the product back, except
    for saturated fat: it was stored under `saturatedFat` but is read from
    `saturated-fat`, so it comes back as 0.0.
  */
  lemma LookupOfSavedBody(p: Product)
    ensures DecodeLookup(SaveProductBody(p)) ==
      Some(p.(id := None, nutriments := p.nutriments.(id := None, saturatedFat := 0.0)))
  {
    var body := SaveProductBody(p);
    SavedBodyFields(p);
    var q := DecodeLookup(body).value;
    assert q.allergens == p.allergens by {
      assert StringsToJson(q.allergens) == StringsToJson(p.allergens);
      assert Strings(StringsToJson(q.allergens)) == Strings(StringsToJson(p.allergens));
    }
    LookupOfStoredNutriments(p.nutriments);
  }

  /**
    A lookup whose 200 reply is a body the app itself saved completes with that
    product, without its id and with saturated fat at 0.0.
  */
  lemma FetchOfSavedBody(store: Store, p: Product)
    requires AuthTokenKey in store
    ensures FetchNutritionalInfo(store, Reply(200, Parsed(Object(SaveProductBody(p))))) ==
      Completed(Ok(p.(id := None, nutriments := p.nutriments.(id := None, saturatedFat := 0.0))))
  {
    LookupOfSavedBody(p);
  }

  /** Each key of the save body holds the product field of the same name, typed as the lookup decoder casts it. */
  lemma SavedBodyFields(p: Product)
    ensures var body := SaveProductBody(p);
      && body["product_name"] == Str(p.productName)
      && body["ingredients_text"] == Str(p.ingredientsText)
      && body["nutriscore_grade"] == Str(p.nutriscoreGrade)
      && body["brands"] == Str(p.brands)
      && body["categories"] == Str(p.categories)
      && body["quantity"] == Str(p.quantity)
      && body["labels"] == Str(p.labels)
      && body["allergens"] == Array(StringsToJson(p.allergens))
      && body["image_url"] == Str(p.imageUrl)
      && HasProductFields(body)
  {
    var body := SaveProductBody(p);
    assert body["product_name"] == Str(p.productName);
    assert body["ingredients_text"] == Str(p.ingredientsText);
    assert body["nutriscore_grade"] == Str(p.nutriscoreGrade);
    assert body["brands"] == Str(p.brands);
    assert body["categories"] == Str(p.categories);
    assert body["quantity"] == Str(p.quantity);
    assert body["labels"] == Str(p.labels);
    assert body["allergens"] == Array(StringsToJson(p.allergens));
    assert body["image_url"] == Str(p.imageUrl);
  }

  /** The nutriments part of the round trip: every fact but saturated fat survives. */
  lemma LookupOfStoredNutriments(n: Nutriments)
    ensures LookupNutriments(NumbersToJson(AsStorage(n))) == n.(id := None, saturatedFat := 0.0)
  {
    var stored := NumbersToJson(AsStorage(n));
    var m := LookupNutriments(stored);
    assert "saturated-fat" !in stored;
    forall nu ensures Value(m, nu) == Value(n.(id := None, saturatedFat := 0.0), nu) {
      if nu != SaturatedFat {
        assert LookupKey(nu) == StorageKey(nu);
      }
    }
    ValuesDetermine(m, n.(id := None, saturatedFat := 0.0));
  }

  /** The messages `saveProductFridge` may show before it sends anything. */
  const NoProductMessage: string := "Aucun produit à enregistrer."
  const NotAuthenticatedMessage: string := "Utilisateur non authentifié."
  const NoTokenSaveMessage: string := "auth-token non disponible."
  const SaveFailedMessage: string := "Erreur lors de l'ajout du produit."

  /** The request `saveProductFridge` sends (user id and body), or the message it shows instead. */
  function SaveProductRequest(product: Option<Product>, store: Store): (r: Result<(string, JsonObject), string>)
    ensures r.Ok? <==> product.Some? && HasCredentials(store)
    ensures r.Ok? ==> r.value == (store[UserIdKey], SaveProductBody(product.value))
  {
    if product.None? then Err(NoProductMessage)
    else if UserIdKey !in store then Err(NotAuthenticatedMessage)
    else if AuthTokenKey !in store then Err(NoTokenSaveMessage)
    else Ok((store[UserIdKey], SaveProductBody(product.value)))
  }

  /** The error message after the reply: none exactly for a 200 reply. */
  function SaveProductResult(response: Response): (message: Option<string>)
    ensures message.None? <==> response.Reply? && response.status == 200
  {
    match response
    case TransportError => Some("Erreur réseau")
    case Reply(status, _) => if status == 200 then None else Some(SaveFailedMessage)
  }

  // ---- Logging the product as a meal -----------------------------------------------

  /**
    The calories of the consumed quantity: kilocalories per 100 g times the
    quantity typed, where text that `Double(_:)` (the parameter `parse`)
    rejects counts as 0.
  */
  function MealCalories(p: Product, quantityText: string, parse: string -> Option<real>): (kcal: real)
    ensures parse(quantityText).None? ==> kcal == 0.0
    ensures parse(quantityText).Some? ==> kcal * 100.0 == p.nutriments.energyKcal * parse(quantityText).value
    ensures parse(quantityText) == Some(100.0) ==> kcal == p.nutriments.energyKcal
    ensures parse(quantityText).Some? && parse(quantityText).value >= 0.0 && p.nutriments.energyKcal >= 0.0 ==> kcal >= 0.0
  {
    (p.nutriments.energyKcal / 100.0) * parse(quantityText).GetOr(0.0)
  }

  const MealKeys: set<string> := {"name", "calories", "quantity", "image_url"}

  /** The body `saveProductConsumes` posts; the quantity is sent as the raw text. */
  function MealBody(p: Product, quantityText: string, parse: string -> Option<real>): (body: JsonObject)
    ensures body.Keys == MealKeys
    ensures body["name"] == Str(p.productName) && body["image_url"] == Str(p.imageUrl)
    ensures body["quantity"] == Str(quantityText)
    ensures body["calories"] == Number(MealCalories(p, quantityText, parse))
  {
    map[
      "name" := Str(p.productName),
      "calories" := Number(MealCalories(p, quantityText, parse)),
      "quantity" := Str(quantityText),
      "image_url" := Str(p.imageUrl)]
  }

  /**
    Once the server has stamped it with `createdAt`, the meal body reads back
    through the `Meal` decoder as a meal with the product's name and image, the
    computed calories and the raw quantity text.
  */
  lemma MealBodyReadsBackAsMeal(p: Product, quantityText: string, parse: string -> Option<real>, t: Meals.Timestamp)
    ensures
      var stored := MealBody(p, quantityText, parse)["createdAt" := Meals.EncodeTimestamp(t)];
      Meals.DecodeMeal(Object(stored)) ==
        Ok(Meals.Meal(None, p.productName, MealCalories(p, quantityText, parse), quantityText, p.imageUrl, t))
  {
    assert Meals.DecodeTimestamp(Meals.EncodeTimestamp(t)) == Ok(t);
  }

  const MealNoDataMessage: string := "Aucune donnée reçue du serveur."
  const MealDecodingMessage: string := "Erreur lors du décodage de la réponse."

  /** A 2xx reply whose body decodes as `{message: String}`. */
  predicate HasMessage(response: Response) {
    && response.Reply? && 200 <= response.status <= 299 && IsObjectReply(response, response.status)
    && StringField(ReplyObject(response), "message").Some?
  }

  /** The outcome of `saveProductConsumes`: the server's `message`, or an error code. */
  function SaveMealResult(store: Store, response: Response): (r: Result<string, Error>)
    ensures UserIdKey !in store ==> r == Err(Failure(-1, "Utilisateur non authentifié."))
    ensures UserIdKey in store && AuthTokenKey !in store ==> r == Err(Failure(-2, "auth-token non disponible."))
    ensures r.Ok? <==> HasCredentials(store) && HasMessage(response)
    ensures r.Ok? ==> StringField(ReplyObject(response), "message") == Some(r.value)
    ensures HasCredentials(store) && response.TransportError? ==> r == Err(Transport)
    ensures HasCredentials(store) && response.Reply? && !(200 <= response.status <= 299) ==>
      r == Err(Failure(response.status, "Erreur HTTP"))
    ensures HasCredentials(store) && response.Reply? && 200 <= response.status <= 299 && response.body.NoData? ==>
      r == Err(Failure(-6, MealNoDataMessage))
    ensures HasCredentials(store) && response.Reply? && 200 <= response.status <= 299 && !response.body.NoData? && !HasMessage(response) ==>
      r == Err(Failure(-7, MealDecodingMessage))
  {
    if UserIdKey !in store then Err(Failure(-1, "Utilisateur non authentifié."))
    else if AuthTokenKey !in store then Err(Failure(-2, "auth-token non disponible."))
    else
      match response
      case TransportError => Err(Transport)
      case Reply(status, body) =>
        if !(200 <= status <= 299) then Err(Failure(status, "Erreur HTTP"))
        else
          match body
          case NoData => Err(Failure(-6, MealNoDataMessage))
          case Parsed(Object(o)) =>
            (match StringField(o, "message")
             case Some(m) => Ok(m)
             case None => Err(Failure(-7, MealDecodingMessage)))
          case _ => Err(Failure(-7, MealDecodingMessage))
  }
}

=== FILE: profile.dfy ===
/**
  The profile form (`DataUserView`, of which the repository holds two copies
  with the same logic): display labels map to API codes by position when the
  form is saved, and codes map back to labels when a stored profile is shown.
*/
module Profile {
  import opened Wrappers
  import opened Json
  import opened Session
  import opened Http
  import Numerics
  import SignIn

  const Male: string := "Homme"
  const Female: string := "Femme"
  const ActivityCodes: seq<string> := ["SEDENTARY", "ACTIVE", "SPORTIVE"]
  const GoalCodes: seq<string> := ["WEIGHTLOSS", "WEIGHTGAIN"]
  const ActivityLabels: seq<string> := ["Sédentaire", "Actif", "Sportif"]
  const GoalLabels: seq<string> := ["Perte de poids", "Prise de masse"]

  const BodyKeys: set<string> := {"id", "age", "weight", "size", "genre", "activites", "objective"}

  /** The form's state: three text fields, the gender and the two selected labels. */
  datatype Form = Form(age: string, weight: string, height: string, gender: string, activity: string, goal: string)

  /** The form as it opens: male, nothing typed, nothing selected. */
  const InitialForm: Form := Form("", "", "", Male, "", "")

  /** `firstIndex(of:)`. */
  function FirstIndex(xs: seq<string>, x: string): (r: Option<nat>)
    ensures r.Some? <==> x in xs
    ensures r.Some? ==> r.value < |xs| && xs[r.value] == x && x !in xs[..r.value]
  {
    if |xs| == 0 then None
    else if xs[0] == x then Some(0)
    else
      match FirstIndex(xs[1..], x)
      case None => None
      case Some(i) =>
        assert xs[..i + 1] == [xs[0]] + xs[1..][..i];
        Some(i + 1)
  }

  /** The entry of `to` at the position of x in `from`. */
  function Translate(from: seq<string>, to: seq<string>, x: string): (r: Option<string>)
    requires |from| == |to|
    ensures r.Some? <==> x in from
    ensures r.Some? ==> exists i | 0 <= i < |from| :: from[i] == x && to[i] == r.value
  {
    match FirstIndex(from, x)
    case None => None
    case Some(i) => Some(to[i])
  }

  /** Activity labels map to codes position by position. */
  lemma ActivityMapping()
    ensures Translate(ActivityLabels, ActivityCodes, "Sédentaire") == Some("SEDENTARY")
    ensures Translate(ActivityLabels, ActivityCodes, "Actif") == Some("ACTIVE")
    ensures Translate(ActivityLabels, ActivityCodes, "Sportif") == Some("SPORTIVE")
    ensures Translate(ActivityLabels, ActivityCodes, "") == None
  {
    assert ActivityLabels[0] == "Sédentaire";
    assert ActivityLabels[1] == "Actif" && ActivityLabels[0] != "Actif";
    assert ActivityLabels[2] == "Sportif" && ActivityLabels[0] != "Sportif" && ActivityLabels[1] != "Sportif";
  }

  /** Goal labels map to codes position by position. */
  lemma GoalMapping()
    ensures Translate(GoalLabels, GoalCodes, "Perte de poids") == Some("WEIGHTLOSS")
    ensures Translate(GoalLabels, GoalCodes, "Prise de masse") == Some("WEIGHTGAIN")
    ensures Translate(GoalLabels, GoalCodes, "") == None
  {
    assert GoalLabels[0] == "Perte de poids";
    assert GoalLabels[1] == "Prise de masse" && GoalLabels[0] != "Prise de masse";
  }

  /** Why `saveUserInfo` sends nothing, in the order it checks. */
  datatype Abort = UnknownSelection | MissingUserId | InvalidNumber | MissingToken

  /** The PUT `saveUserInfo` sends (token and body), or why it sends none. */
  datatype SaveRequest = Aborted(reason: Abort) | Put(token: string, body: JsonObject)

  /** The three text fields parse as numbers with `Double(_:)` (the parameter `parse`). */
  predicate NumbersParse(f: Form, parse: string -> Option<real>) {
    parse(f.age).Some? && parse(f.weight).Some? && parse(f.height).Some?
  }

  predicate KnownSelection(f: Form) {
    f.activity in ActivityLabels && f.goal in GoalLabels
  }

  /**
    `saveUserInfo`. It sends nothing when a selected label is not in its list
    (as with the initial empty selection), when the user id is missing, when a
    text field is not a number, or when the token is missing. The body has
    exactly seven keys; `genre` is false exactly for "Homme".
  */
  function SaveUserInfo(f: Form, store: Store, parse: string -> Option<real>): (r: SaveRequest)
    ensures r.Put? <==> KnownSelection(f) && HasCredentials(store) && NumbersParse(f, parse)
    ensures !KnownSelection(f) ==> r == Aborted(UnknownSelection)
    ensures KnownSelection(f) && UserIdKey in store && !NumbersParse(f, parse) ==> r == Aborted(InvalidNumber)
    ensures r.Put? ==>
      && r.token == store[AuthTokenKey]
      && r.body.Keys == BodyKeys
      && r.body["id"] == Str(store[UserIdKey])
      && r.body["age"] == Number(parse(f.age).value)
      && r.body["weight"] == Number(parse(f.weight).value)
      && r.body["size"] == Number(parse(f.height).value)
      && r.body["genre"] == Bool(f.gender != Male)
      && r.body["activites"].Str? && r.body["objective"].Str?
      && Some(r.body["activites"].str) == Translate(ActivityLabels, ActivityCodes, f.activity)
      && Some(r.body["objective"].str) == Translate(GoalLabels, GoalCodes, f.goal)
  {
    match (Translate(ActivityLabels, ActivityCodes, f.activity), Translate(GoalLabels, GoalCodes, f.goal))
    case (Some(activity), Some(goal)) =>
      if UserIdKey !in store then Aborted(MissingUserId)
      else if !NumbersParse(f, parse) then Aborted(InvalidNumber)
      else if AuthTokenKey !in store then Aborted(MissingToken)
      else
        Put(store[AuthTokenKey], map[
          "id" := Str(store[UserIdKey]),
          "age" := Number(parse(f.age).value),
          "weight" := Number(parse(f.weight).value),
          "size" := Number(parse(f.height).value),
          "genre" := Bool(f.gender != Male),
          "activites" := Str(activity),
          "objective" := Str(goal)])
    case _ => Aborted(UnknownSelection)
  }

  /**
    `showInfoUser`. Each field a stored profile provides with the right type
    replaces the form's; `age` is truncated to an integer, the gender flag reads
    true as "Femme", and a code outside its list leaves the selection as it was.
    `formatInt` and `formatDouble` are Swift's `String(_:)` on `Int` and `Double`.
  */
  function ShowInfoUser(f: Form, o: JsonObject, formatInt: int -> string, formatDouble: real -> string): (g: Form)
    ensures g.age == (match DoubleField(o, "age") case Some(v) => formatInt(Numerics.Truncate(v)) case None => f.age)
    ensures g.weight == (match DoubleField(o, "weight") case Some(v) => formatDouble(v) case None => f.weight)
    ensures g.height == (match DoubleField(o, "size") case Some(v) => formatDouble(v) case None => f.height)
    ensures g.gender == (match BoolField(o, "genre") case Some(b) => (if b then Female else Male) case None => f.gender)
    ensures g.activity == Translate(ActivityCodes, ActivityLabels, StringField(o, "activites").GetOr("")).GetOr(f.activity)
    ensures g.goal == Translate(GoalCodes, GoalLabels, StringField(o, "objective").GetOr("")).GetOr(f.goal)
  {
    var age := match DoubleField(o, "age") case Some(v) => formatInt(Numerics.Truncate(v)) case None => f.age;
    var weight := match DoubleField(o, "weight") case Some(v) => formatDouble(v) case None => f.weight;
    var height := match DoubleField(o, "size") case Some(v) => formatDouble(v) case None => f.height;
    var gender := match BoolField(o, "genre") case Some(b) => (if b then Female else Male) case None => f.gender;
    var activity :=
      match StringField(o, "activites")
      case Some(code) => Translate(ActivityCodes, ActivityLabels, code).GetOr(f.activity)
      case None => f.activity;
    var goal :=
      match StringField(o, "objective")
      case Some(code) => Translate(GoalCodes, GoalLabels, code).GetOr(f.goal)
      case None => f.goal;
    assert "" !in ActivityCodes && "" !in GoalCodes;
    Form(age, weight, height, gender, activity, goal)
  }

  /** The PUT's reply marks the profile saved only when its status is 200. */
  function SaveAccepted(response: Response): (saved: bool)
    ensures saved ==> response.Reply?
    ensures response.Reply? ==> (saved <==> response.status == 200)
  {
    response.Reply? && response.status == 200
  }

  /**
    `fetchUserInfo`: the form shows the stored profile only when both
    credentials are present and a 200 reply carries a JSON object; every other
    outcome leaves the form as it was.
  */
  function FetchUserInfo(f: Form, store: Store, response: Response,
                         formatInt: int -> string, formatDouble: real -> string): (g: Form)
    ensures !(HasCredentials(store) && IsObjectReply(response, 200)) ==> g == f
    ensures HasCredentials(store) && IsObjectReply(response, 200) ==>
      g == ShowInfoUser(f, ReplyObject(response), formatInt, formatDouble)
  {
    if !HasCredentials(store) then f
    else
      match response
      case Reply(200, Parsed(Object(o))) => ShowInfoUser(f, o, formatInt, formatDouble)
      case _ => f
  }

  /** A reply without a profile object changes nothing, whatever its status. */
  lemma NonObjectReplyKeepsForm(f: Form, store: Store, status: int, body: Body,
                                formatInt: int -> string, formatDouble: real -> string)
    requires !(body.Parsed? && body.json.Object?)
    ensures FetchUserInfo(f, store, Reply(status, body), formatInt, formatDouble) == f
  {
  }

  // ---- The two directions of the mapping ------------------------------------------

  /** Label to code and back: each known activity label survives the round trip. */
  lemma ActivityLabelRoundTrip(lbl: string)
    requires lbl in ActivityLabels
    ensures Translate(ActivityCodes, ActivityLabels, Translate(ActivityLabels, ActivityCodes, lbl).value) == Some(lbl)
  {
    ActivityMapping();
    assert lbl == ActivityLabels[0] || lbl == ActivityLabels[1] || lbl == ActivityLabels[2];
    assert ActivityCodes[0] == "SEDENTARY" && ActivityCodes[1] == "ACTIVE" && ActivityCodes[2] == "SPORTIVE";
  }

  /** Code to label and back: each known activity code survives the round trip. */
  lemma ActivityCodeRoundTrip(code: string)
    requires code in ActivityCodes
    ensures Translate(ActivityLabels, ActivityCodes, Translate(ActivityCodes, ActivityLabels, code).value) == Some(code)
  {
    ActivityMapping();
    assert code == ActivityCodes[0] || code == ActivityCodes[1] || code == ActivityCodes[2];
    assert ActivityCodes[1] != ActivityCodes[0] && ActivityCodes[2] != ActivityCodes[0] && ActivityCodes[2] != ActivityCodes[1];
  }

  lemma GoalLabelRoundTrip(lbl: string)
    requires lbl in GoalLabels
    ensures Translate(GoalCodes, GoalLabels, Translate(GoalLabels, GoalCodes, lbl).value) == Some(lbl)
  {
    GoalMapping();
    assert lbl == GoalLabels[0] || lbl == GoalLabels[1];
    assert GoalCodes[0] == "WEIGHTLOSS" && GoalCodes[1] == "WEIGHTGAIN";
  }

  lemma GoalCodeRoundTrip(code: string)
    requires code in GoalCodes
    ensures Translate(GoalLabels, GoalCodes, Translate(GoalCodes, GoalLabels, code).value) == Some(code)
  {
    GoalMapping();
    assert code == GoalCodes[0] || code == GoalCodes[1];
    assert GoalCodes[1] != GoalCodes[0];
  }

  /**
    Saving a form and showing the saved body again restores the selected
    labels, whatever form it is shown in, and the gender up to its two values:
    any gender other than "Homme" comes back as "Femme".
  */
  lemma SaveThenShowRestoresSelection(f: Form, store: Store, parse: string -> Option<real>,
                                      shownIn: Form, formatInt: int -> string, formatDouble: real -> string)
    requires SaveUserInfo(f, store, parse).Put?
    ensures
      var g := ShowInfoUser(shownIn, SaveUserInfo(f, store, parse).body, formatInt, formatDouble);
      && g.activity == f.activity
      && g.goal == f.goal
      && g.gender == (if f.gender == Male then Male else Female)
      && g.weight == formatDouble(parse(f.weight).value)
      && g.height == formatDouble(parse(f.height).value)
  {
    var body := SaveUserInfo(f, store, parse).body;
    ActivityLabelRoundTrip(f.activity);
    GoalLabelRoundTrip(f.goal);
    assert StringField(body, "activites") == Some(body["activites"].str);
    assert StringField(body, "objective") == Some(body["objective"].str);
  }

  /**
    Showing a stored profile and saving straight away sends back the stored
    activity and goal codes and the stored gender flag.
  */
  lemma ShowThenSaveRestoresCodes(f: Form, o: JsonObject, store: Store, parse: string -> Option<real>,
                                  formatInt: int -> string, formatDouble: real -> string)
    requires StringField(o, "activites").Some? && StringField(o, "activites").value in ActivityCodes
    requires StringField(o, "objective").Some? && StringField(o, "objective").value in GoalCodes
    requires BoolField(o, "genre").Some?
    requires HasCredentials(store) && NumbersParse(ShowInfoUser(f, o, formatInt, formatDouble), parse)
    ensures
      var r := SaveUserInfo(ShowInfoUser(f, o, formatInt, formatDouble), store, parse);
      && r.Put?
      && r.body["activites"] == o["activites"]
      && r.body["objective"] == o["objective"]
      && r.body["genre"] == o["genre"]
  {
    var g := ShowInfoUser(f, o, formatInt, formatDouble);
    ActivityCodeRoundTrip(o["activites"].str);
    GoalCodeRoundTrip(o["objective"].str);
    assert g.activity in ActivityLabels && g.goal in GoalLabels;
  }

  /** A code outside its list, or a field of the wrong type, leaves the selection alone. */
  lemma UnknownCodeKeepsSelection(f: Form, o: JsonObject, formatInt: int -> string, formatDouble: real -> string)
    requires StringField(o, "activites").None? || StringField(o, "activites").value !in ActivityCodes
    requires StringField(o, "objective").None? || StringField(o, "objective").value !in GoalCodes
    ensures ShowInfoUser(f, o, formatInt, formatDouble).activity == f.activity
    ensures ShowInfoUser(f, o, formatInt, formatDouble).goal == f.goal
  {
  }

  /** The initial form, with nothing selected, is never sent. */
  lemma InitialFormNotSent(store: Store, parse: string -> Option<real>)
    ensures SaveUserInfo(InitialForm, store, parse) == Aborted(UnknownSelection)
  {
    ActivityMapping();
  }

  /**
    Once a profile body has been saved, the sign-in screen no longer treats the
    user as connecting for the first time.
  */
  lemma SavedProfileIsNotFirstConnection(f: Form, store: Store, parse: string -> Option<real>)
    requires SaveUserInfo(f, store, parse).Put?
    ensures !SignIn.IsFirstConnection(SaveUserInfo(f, store, parse).body)
  {
  }
}

=== FILE: session.dfy ===
/**
  The session credentials the application keeps in `UserDefaults`, modelled as
  a key-to-string map.
*/
module Session {

  type Store = map<string, string>

  const AuthTokenKey: string := "authToken"
  const UserIdKey: string := "userId"

  /** The two credentials every authenticated request reads. */
  predicate HasCredentials(store: Store) {
    AuthTokenKey in store && UserIdKey in store
  }

  /**
    Logging out (`DashBoardView.logout`) removes both credentials and touches
    no other key.
  */
  function Logout(store: Store): (r: Store)
    ensures AuthTokenKey !in r && UserIdKey !in r
    ensures !HasCredentials(r)
    ensures forall k | k != AuthTokenKey && k != UserIdKey :: (k in r <==> k in store)
    ensures forall k | k in r :: r[k] == store[k]
  {
    store - {AuthTokenKey, UserIdKey}
  }
}

=== FILE: signin.dfy ===
/**
  The sign-in screen's decisions (`SignInView.SignIn` and
  `checkFirstConnection`): what a sign-in reply writes into the session store,
  which message it shows, and whether the profile is then fetched.
*/
module SignIn {
  import opened Wrappers
  import opened Json
  import opened Http
  import opened Session
  import Base64
  import Jwt

  const SuccessMessage: string := "Connexion réussie"
  const FailureMessage: string := "Échec de la connexion"

  const TokenKey: string := "token"
  const PayloadUserIdKey: string := "userId"
  const ActivityKey: string := "activites"

  /** The store after the reply, the message shown, and whose profile is fetched next. */
  datatype Outcome = Outcome(store: Store, message: Option<string>, fetchProfileOf: Option<string>)

  /** The `token` string of a 200 reply whose body is a JSON object carrying one. */
  function IssuedToken(response: Response): (t: Option<string>)
    ensures t.Some? ==> response.Reply? && response.status == 200 && response.body.Parsed?
  {
    if response.Reply? && response.status == 200 && response.body.Parsed? && response.body.json.Object? then
      StringField(response.body.json.fields, TokenKey)
    else None
  }

  /** The `userId` string the token's payload carries, if it decodes. */
  function PayloadUserId(token: string, parse: seq<Base64.byte> -> Option<Json>): Option<string> {
    match Jwt.DecodeJwt(token, parse)
    case None => None
    case Some(payload) => StringField(payload, PayloadUserIdKey)
  }

  /**
    `SignIn`'s completion handler. The token is stored as soon as the reply
    carries one, before its payload is decoded; the user id is stored only when
    the payload yields one, so a token with an unreadable payload leaves the
    previous user id (or none) beside the new token.
  */
  function SignIn(store: Store, response: Response, parse: seq<Base64.byte> -> Option<Json>): (r: Outcome)
    // no key but the two credentials is ever touched
    ensures forall k | k != AuthTokenKey && k != UserIdKey :: (k in r.store <==> k in store)
    ensures forall k | k in store && k != AuthTokenKey && k != UserIdKey :: r.store[k] == store[k]
    // without a token in a 200 reply nothing is stored
    ensures IssuedToken(response).None? ==> r.store == store && r.fetchProfileOf.None?
    // a token is stored whatever its payload
    ensures IssuedToken(response).Some? ==>
      AuthTokenKey in r.store && r.store[AuthTokenKey] == IssuedToken(response).value
    // the user id is written exactly when the payload yields one
    ensures IssuedToken(response).Some? && PayloadUserId(IssuedToken(response).value, parse).Some? ==>
      var u := PayloadUserId(IssuedToken(response).value, parse).value;
      UserIdKey in r.store && r.store[UserIdKey] == u && r.fetchProfileOf == Some(u) && r.message == Some(SuccessMessage)
    ensures PayloadUserId(IssuedToken(response).GetOr(""), parse).None? ==>
      (UserIdKey in r.store <==> UserIdKey in store) &&
      (UserIdKey in store ==> r.store[UserIdKey] == store[UserIdKey]) &&
      r.fetchProfileOf.None?
    // the failure message is shown for any non-200 reply that has a body
    ensures r.message == Some(FailureMessage) <==>
      response.Reply? && response.status != 200 && !response.body.NoData?
    // the success message is shown exactly when a user id came out of the token
    ensures r.message == Some(SuccessMessage) <==>
      IssuedToken(response).Some? && PayloadUserId(IssuedToken(response).value, parse).Some?
    // and no other message is ever shown
    ensures r.message.None? || r.message == Some(SuccessMessage) || r.message == Some(FailureMessage)
  {
    match response
    case TransportError => Outcome(store, None, None)
    case Reply(status, body) =>
      if body.NoData? then Outcome(store, None, None)
      else if status != 200 then Outcome(store, Some(FailureMessage), None)
      else
        match IssuedToken(response)
        case None => Outcome(store, None, None)
        case Some(token) =>
          var withToken := store[AuthTokenKey := token];
          match PayloadUserId(token, parse)
          case None => Outcome(withToken, None, None)
          case Some(u) => Outcome(withToken[UserIdKey := u], Some(SuccessMessage), Some(u))
  }

  /**
    A 200 reply whose token a JWS signer built around a payload object with a
    string `userId` leaves both credentials in the store, and the user id is the
    payload's.
  */
  lemma SignInWithSignedToken(store: Store, h: string, payload: seq<Base64.byte>, sig: string,
                              claims: JsonObject, u: string, parse: seq<Base64.byte> -> Option<Json>)
    requires |h| > 0 && |payload| > 0 && |sig| > 0
    requires Jwt.Dot !in h && Jwt.Dot !in sig
    requires parse(payload) == Some(Object(claims))
    requires PayloadUserIdKey in claims && claims[PayloadUserIdKey] == Str(u)
    ensures
      var token := h + "." + Jwt.UrlEncode(payload) + "." + sig;
      var r := SignIn(store, Reply(200, Parsed(Object(map[TokenKey := Str(token)]))), parse);
      HasCredentials(r.store) && r.store[AuthTokenKey] == token && r.store[UserIdKey] == u
  {
    var token := h + "." + Jwt.UrlEncode(payload) + "." + sig;
    Jwt.DecodeSignedToken(h, payload, sig, parse);
    assert PayloadUserId(token, parse) == Some(u);
  }

  /**
    A token with two parts is stored but its payload is never read, so a
    session that held another user's id keeps it next to the new token.
  */
  lemma TwoPartTokenKeepsStaleUserId(parse: seq<Base64.byte> -> Option<Json>)
    ensures
      var store := map[UserIdKey := "previous"];
      var r := SignIn(store, Reply(200, Parsed(Object(map[TokenKey := Str("a..b")]))), parse);
      r.store[AuthTokenKey] == "a..b" && r.store[UserIdKey] == "previous" && r.message.None?
  {
    Jwt.AdjacentDotsDropPiece();
  }

  /**
    `checkFirstConnection`: the first connection is the one whose profile has
    no string `activites` yet.
  */
  function IsFirstConnection(profile: JsonObject): (first: bool)
    ensures first <==> ActivityKey !in profile || !profile[ActivityKey].Str?
  {
    StringField(profile, ActivityKey).None?
  }
}

=== FILE: training.dfy ===
/**
  Validating a training session (`DetailsTrainingView`): the calories of a
  program's exercises are summed and posted to the day's entry.
*/
module Training {
  import opened Wrappers
  import opened Json
  import opened Http
  import opened Session

  /** An exercise of a session; its generated `UUID` identity is not modelled. */
  datatype Exercise = Exercise(
    name: string, description: string, muscles: seq<string>,
    series: int, repetitions: int, calories: int, image: string)

  /** A training program; `kind` is the source's `type`. */
  datatype TrainingProgram = TrainingProgram(
    id: string, totalCalories: int, name: string, description: string,
    kind: string, exercises: seq<Exercise>)

  const MissingCredentialsMessage: string := "Token ou ID utilisateur manquant."
  const NoDataMessage: string := "Aucune donnée reçue."
  const UnexpectedReplyMessage: string := "Réponse inattendue."

  /** `exercises.reduce(0) { sum, exercise in sum + exercise.calories }`, folding from the left. */
  function SessionTotal(exercises: seq<Exercise>): (r: int)
    ensures |exercises| == 0 ==> r == 0
    ensures (forall i | 0 <= i < |exercises| :: exercises[i].calories >= 0) ==> r >= 0
    decreases |exercises|
  {
    if |exercises| == 0 then 0
    else SessionTotal(exercises[..|exercises| - 1]) + exercises[|exercises| - 1].calories
  }

  /** The same sum folded from the right, as a reference for the order-independence lemma. */
  function SumFromRight(exercises: seq<Exercise>): (r: int)
    ensures |exercises| == 1 ==> r == exercises[0].calories
    decreases |exercises|
  {
    if |exercises| == 0 then 0 else exercises[0].calories + SumFromRight(exercises[1..])
  }

  lemma {:induction false} SumFromRightAppend(a: seq<Exercise>, b: seq<Exercise>)
    ensures SumFromRight(a + b) == SumFromRight(a) + SumFromRight(b)
    decreases |a|
  {
    if |a| == 0 {
      assert a + b == b;
    } else {
      assert (a + b)[1..] == a[1..] + b;
      SumFromRightAppend(a[1..], b);
    }
  }

  /** The order of the fold does not matter: the total is the plain sum of the calories. */
  lemma {:induction false} SessionTotalIsSum(exercises: seq<Exercise>)
    ensures SessionTotal(exercises) == SumFromRight(exercises)
    decreases |exercises|
  {
    var n := |exercises|;
    if n > 0 {
      SessionTotalIsSum(exercises[..n - 1]);
      SumFromRightAppend(exercises[..n - 1], [exercises[n - 1]]);
      assert exercises[..n - 1] + [exercises[n - 1]] == exercises;
    }
  }

  /** Splitting a program in two splits its total. */
  lemma SessionTotalAppend(a: seq<Exercise>, b: seq<Exercise>)
    ensures SessionTotal(a + b) == SessionTotal(a) + SessionTotal(b)
  {
    SessionTotalIsSum(a + b);
    SessionTotalIsSum(a);
    SessionTotalIsSum(b);
    SumFromRightAppend(a, b);
  }

  /** The running sum `validateSession` computes, exercise by exercise. */
  method ComputeSessionTotal(program: TrainingProgram) returns (total: int)
    ensures total == SessionTotal(program.exercises)
    ensures total == SumFromRight(program.exercises)
  {
    var xs := program.exercises;
    total := 0;
    var i := 0;
    while i < |xs|
      invariant 0 <= i <= |xs|
      invariant total == SessionTotal(xs[..i])
    {
      assert xs[..i + 1][..i] == xs[..i];
      total := total + xs[i].calories;
      i := i + 1;
    }
    assert xs[..i] == xs;
    SessionTotalIsSum(xs);
  }

  /** The POST body: the session's total under the single key `caloriesBurnToAdd`. */
  function AddCaloriesBody(program: TrainingProgram): (b: JsonObject)
    ensures b.Keys == {"caloriesBurnToAdd"}
    ensures DoubleField(b, "caloriesBurnToAdd") == Some(SumFromRight(program.exercises) as real)
  {
    SessionTotalIsSum(program.exercises);
    map["caloriesBurnToAdd" := Number(SessionTotal(program.exercises) as real)]
  }

  /** The program's own `totalCalories` plays no part in what is posted. */
  lemma StoredTotalIgnored(program: TrainingProgram, totalCalories: int)
    ensures AddCaloriesBody(program.(totalCalories := totalCalories)) == AddCaloriesBody(program)
  {
  }

  /** A program without exercises posts zero. */
  lemma EmptyProgramAddsNothing(program: TrainingProgram)
    requires program.exercises == []
    ensures AddCaloriesBody(program)["caloriesBurnToAdd"] == Number(0.0)
  {
  }

  /**
    `addCaloriesBurn`'s result. Missing credentials fail before any request;
    otherwise any reply whose body is a JSON object succeeds, whatever its
    status.
  */
  function AddCaloriesBurn(store: Store, response: Response): (r: Result<JsonObject, Error>)
    ensures !HasCredentials(store) ==> r == Err(Failure(401, MissingCredentialsMessage))
    ensures r.Ok? <==> HasCredentials(store) && response.Reply? && response.body.Parsed? && response.body.json.Object?
    ensures r.Ok? ==> r.value == ReplyObject(response)
    ensures HasCredentials(store) && response.TransportError? ==> r == Err(Transport)
    ensures HasCredentials(store) && response.Reply? && response.body.NoData? ==> r == Err(Failure(500, NoDataMessage))
    ensures HasCredentials(store) && response.Reply? && response.body.Unparseable? ==> r == Err(SyntaxError)
    ensures HasCredentials(store) && response.Reply? && response.body.Parsed? && !response.body.json.Object? ==>
      r == Err(Failure(500, UnexpectedReplyMessage))
  {
    if !HasCredentials(store) then Err(Failure(401, MissingCredentialsMessage))
    else
      match response
      case TransportError => Err(Transport)
      case Reply(_, NoData) => Err(Failure(500, NoDataMessage))
      case Reply(_, Unparseable) => Err(SyntaxError)
      case Reply(_, Parsed(Object(o))) => Ok(o)
      case Reply(_, Parsed(_)) => Err(Failure(500, UnexpectedReplyMessage))
  }

  /** The HTTP status never changes the result. */
  lemma StatusIgnored(store: Store, s1: int, s2: int, body: Body)
    ensures AddCaloriesBurn(store, Reply(s1, body)) == AddCaloriesBurn(store, Reply(s2, body))
  {
  }

  /** What the screen shows after `validateSession`: success, or the error. */
  datatype Validation = Validation(isSuccess: bool, error: Option<Error>)

  function ValidateSession(store: Store, response: Response): (v: Validation)
    ensures v.isSuccess <==> v.error.None?
    ensures v.isSuccess <==> HasCredentials(store) && response.Reply? && response.body.Parsed? && response.body.json.Object?
    ensures AddCaloriesBurn(store, response).Err? ==> v.error == Some(AddCaloriesBurn(store, response).error)
  {
    match AddCaloriesBurn(store, response)
    case Ok(_) => Validation(true, None)
    case Err(e) => Validation(false, Some(e))
  }

  /** After logging out, validating a session fails with 401 whatever the server would answer. */
  lemma ValidationFailsAfterLogout(store: Store, response: Response)
    ensures ValidateSession(Logout(store), response) == Validation(false, Some(Failure(401, MissingCredentialsMessage)))
  {
  }
}

=== FILE: wrappers.dfy ===
/** Failure-compatible wrappers shared by every module of the model. */
module Wrappers {

  /** An optional value: Swift's `T?`. */
  datatype Option<+T> = None | Some(value: T) {

    /** Swift's `?? default`. */
    function GetOr(default: T): T {
      match this
      case Some(v) => v
      case None => default
    }
  }

  /** A value or an error: Swift's `Result<T, Error>` and a throwing decoder. */
  datatype Result<+T, +E> = Ok(value: T) | Err(error: E)
}
